=== FILE: README.md ===
# Domotic: schedule engine, broker session and device controls

A Dafny model of the core of Domotic, an iOS client that switches two smart
outlets ("Prise 1" and "Prise 2") over MQTT and can switch them automatically
on daily time windows. The model covers:

- the **schedule record** `LEDControlSchedule` and its serialized form;
- the **schedule engine** `ScheduleManager`:
  - saving and loading the schedule list;
  - `handleLightAction`;
  - the per-minute evaluator `executeSchedules`, with its two runtime flags;
- the **broker session** `MQTTManager`:
  - the command mapping `handleLight`;
  - the connection acknowledgement and disconnect handlers;
  - the inbound router `handleReceivedMessage`;
- the **views' state operations**:
  - updating a schedule by id (`EditScheduleView.applyChanges`);
  - deleting a schedule by id (`EtatView.deleteSchedule`);
  - the outlet screen's power button (`EtatView.toggleLED`);
  - the title-to-LED mapping;
  - the home screen's rows, its two-button row and its power button
    (`AcceuilView.toggleBothLEDs`).

Everything is a pure function. Each one takes the current state and returns
the next state plus an ordered log of `Bus.Event`s: publishes, subscriptions
and local notifications. The user-defaults store is an immutable map
(`Defaults.Store`). The app has one store, `UserDefaults.standard`. The
model gives it two names: `Session.store` holds what the MQTT manager and
the home screen read and write, and `ScheduleList.store` holds what the
schedule screens save. The two are never combined, and no stated property
relates them. So `DeleteSchedule`'s "every other key is kept" is about a map
the session never reads. Wherever a contract says which stored keys an
operation changes, it also says that no other key appears or disappears. JSON is replaced by a tagged-token stream whose
round trip is proved. Schedule identifiers (UUIDs) are natural numbers.

Modules:

| module | file |
|---|---|
| `Options` | options.dfy |
| `Bus` | bus.dfy |
| `Defaults` | defaults.dfy |
| `Clock` | clock.dfy |
| `ScheduleModel` | schedule_model.dfy |
| `ScheduleManager` | schedule_manager.dfy |
| `ScheduleProperties` | schedule_properties.dfy |
| `ScheduleScenarios` | schedule_scenarios.dfy |
| `MqttManager` | mqtt_manager.dfy |
| `MqttProperties` | mqtt_properties.dfy |
| `Bindings` | bindings.dfy |
| `AcceuilView` | acceuil_view.dfy |
| `EtatView` | etat_view.dfy |
| `EditScheduleView` | edit_schedule_view.dfy |
| `ViewProperties` | view_properties.dfy |

The model follows what the code does, including where that differs from what its comments and names suggest:

- **Runtime flags.** The evaluator keeps one flag per LED (`led1StateChanged`,
  `led2StateChanged`), not one per schedule, although the comment on the start
  block (Domotic/Schedule/ScheduleManager.swift:79) speaks of "the action" as
  if each schedule had its own. All schedules share these flags
  and are visited in list order. So a second schedule for the same LED
  starting in the same minute is suppressed (`SecondScheduleOnSameLedSuppressed`),
  and the list order can decide the outcome of a minute (`ListOrderDecides`).
  An "ALL" schedule sets and clears both flags together.
- **`start == end`.** A schedule whose start equals its end does fire its end
  transition. In one tick it sends its action if that LED's flag was clear,
  then `LED_OFF`. Because the end block clears the flag again, it does this on
  every tick in that minute.
- **Connection state.** The code has no "Connecting" state. The session holds
  only `isConnected: Bool`.
- **Start and end times.** They are strings compared by equality with the
  clock rendered as "HH:mm". They are not minute values. Whether a
  schedule's start and end parse is left as a parameter, `accepts`.
  `Clock.ParseClock` is a strict instance of it. The proof of
  `ParseClockIsCanonical` shows it accepts exactly the canonical renderings.
- **Malformed payloads.** A malformed LED payload is ignored silently,
  with no reported failure.
- **Publishing.** Publishing ignores the connection state. Every command is
  handed to the transport whatever `isConnected` says.

## Model

| member | source | states |
|---|---|---|
| `ScheduleModel.NewSchedule` | Domotic/Schedule/ScheduleModel.swift:10-16 | a new schedule carries the given five fields, any action and LED text included, and an id no existing schedule has |
| `ScheduleModel.DecodeEncode` | Domotic/Schedule/ScheduleModel.swift:10 | decoding an encoded schedule list gives back every schedule with all six fields |
| `ScheduleModel.DecodeRejectsTruncated` | Domotic/Schedule/ScheduleManager.swift:33-38 | a blob that is not a whole number of encoded schedules fails to decode |
| `ScheduleModel.FirstIndex` | Domotic/Views/EditScheduleView.swift:79 | the result is the first position with the id, and is absent exactly when no schedule has it |
| `Defaults.GetBool` | Domotic/MQTT/MQTTManager.swift:22-23 | `bool(forKey:)` is true iff the key holds the boolean true; missing keys read as false |
| `Defaults.SetBool` | Domotic/Views/AcceuilView.swift:184-186 | after `set(_:forKey:)` the key reads back the value; every other key keeps its value |
| `ScheduleManager.LoadSchedules` | Domotic/Schedule/ScheduleManager.swift:31-41 | a blob that decodes gives its decoding; nothing stored, or a blob that does not decode, gives the empty list |
| `ScheduleManager.SaveSchedules` | Domotic/Schedule/ScheduleManager.swift:21-28 | loading after saving gives back exactly the saved list; no other key changes |
| `ScheduleManager.HandleLightAction` | Domotic/Schedule/ScheduleManager.swift:120-124 | publishes to the first outlet's topic iff the LED is "LED1"; payload LED_ON iff the action is "On" |
| `Clock.FormatClock` | Domotic/Schedule/ScheduleManager.swift:67-70 | the clock string is five characters: two digits, a colon, two digits |
| `Clock.ParseFormat` | Domotic/Schedule/ScheduleManager.swift:67-70 | parsing the "HH:mm" rendering of a minute gives that minute back |
| `Clock.ParseClockIsCanonical` | Domotic/Schedule/ScheduleManager.swift:67-77 | a string parses to a minute iff it is that minute's rendering |
| `Clock.FormatClockInjective` | Domotic/Schedule/ScheduleManager.swift:80 | two clock renderings are equal iff the minutes are |
| `Clock.SecondsToNextMinute` | Domotic/Schedule/ScheduleManager.swift:48-51 | the first delay is 1 to 60 seconds and lands on a minute boundary |
| `ScheduleProperties.InactiveScheduleIsSkipped` | Domotic/Schedule/ScheduleManager.swift:73-77 | a disabled schedule, or one whose start or end does not parse, has no effect, even when its start equals the clock |
| `ScheduleProperties.SingleLedStart` | Domotic/Schedule/ScheduleManager.swift:80-88 | at its start minute a LED1/LED2 schedule publishes its action to its LED and sets that flag iff the flag was clear; the other flag is untouched |
| `ScheduleProperties.SingleLedStartIsOnce` | Domotic/Schedule/ScheduleManager.swift:80-88 | a second pass at the same start minute emits nothing |
| `ScheduleProperties.SingleLedEnd` | Domotic/Schedule/ScheduleManager.swift:99-107 | at its end minute a LED1/LED2 schedule publishes LED_OFF, whatever its action, and clears the flag iff the flag was set |
| `ScheduleProperties.AllLedsStart` | Domotic/Schedule/ScheduleManager.swift:89-94 | an "ALL" start publishes to each clear LED, sets both flags and always notifies |
| `ScheduleProperties.AllLedsEnd` | Domotic/Schedule/ScheduleManager.swift:108-113 | an "ALL" end publishes LED_OFF to each set LED, clears both flags and always notifies |
| `ScheduleProperties.SingleLedSameMinute` | Domotic/Schedule/ScheduleManager.swift:80-115 | with start equal to end, the start action (if the flag was clear) then LED_OFF in one tick, flag left clear |
| `ScheduleProperties.AllLedsSameMinute` | Domotic/Schedule/ScheduleManager.swift:80-115 | an "ALL" schedule with start equal to end sends its action to the clear LEDs, then LED_OFF to both, both flags left clear |
| `ScheduleProperties.UnknownLedDoesNothing` | Domotic/Schedule/ScheduleManager.swift:81-95 | a schedule whose LED is none of LED1, LED2 and ALL never switches anything |
| `ScheduleProperties.OffMinuteDoesNothing` | Domotic/Schedule/ScheduleManager.swift:80-115 | outside its start and end minutes a schedule does nothing |
| `ScheduleProperties.TickSingle` | Domotic/Schedule/ScheduleManager.swift:73 | a tick over one schedule is that schedule's iteration |
| `ScheduleProperties.TickPair` | Domotic/Schedule/ScheduleManager.swift:73 | a tick over two schedules runs the second from the flags the first left |
| `ScheduleProperties.TickAppend` | Domotic/Schedule/ScheduleManager.swift:73 | a tick over a concatenation is the tick over the first part, then the second from the flags it left |
| `ScheduleProperties.TickIgnoresInactive` | Domotic/Schedule/ScheduleManager.swift:73-77 | removing all inactive schedules from the list does not change a tick |
| `ScheduleProperties.TickEmitsLedCommandsOnly` | Domotic/Schedule/ScheduleManager.swift:80-124 | a tick publishes only LED_ON/LED_OFF on the two outlet topics and never subscribes |
| `ScheduleProperties.SecondTickPublishesNothing` | Domotic/Schedule/ScheduleManager.swift:73-96 | with no schedule ending in the minute, a second tick for that minute publishes nothing and keeps the flags |
| `ScheduleProperties.ExecuteRunsSavedList` | Domotic/Schedule/ScheduleManager.swift:64-117 | a tick (`ExecuteSchedules`, the loop `Tick` over `StepSchedule`) evaluates exactly the list last saved, in order, against the rendered clock |
| `ScheduleProperties.ExecuteWithoutStoredList` | Domotic/Schedule/ScheduleManager.swift:31-41 | with no list stored, or one that does not decode, a tick does nothing |
| `ScheduleScenarios.SecondScheduleOnSameLedSuppressed` | Domotic/Schedule/ScheduleManager.swift:80-88 | of two LED1 schedules starting in the same minute only the first in list order is sent |
| `ScheduleScenarios.ListOrderDecides` | Domotic/Schedule/ScheduleManager.swift:73-115 | an LED1 window ending and another starting in one minute: the list order decides whether the LED ends on |
| `ScheduleScenarios.OverlappingWindowsOnTwoOutlets` | Domotic/Schedule/ScheduleManager.swift:64-115 | LED1 08:00-08:05 and LED2 08:02-08:10 ticked 07:59 to 08:11 publish exactly the four edge commands, at the four edge minutes |
| `MqttManager.InitSession` | Domotic/MQTT/MQTTManager.swift:20-23 | a new session is disconnected with the LED flags restored from the store |
| `MqttManager.HandleLight` | Domotic/MQTT/MQTTManager.swift:91-113 | a command publishes something iff it is one of the six known; only all_on/all_off publish twice |
| `MqttManager.HandleConnectAck` | Domotic/MQTT/MQTTManager.swift:116-128 | connected iff the return code is 0x00; then the four subscriptions in order, else none; nothing else changes |
| `MqttManager.HandleDisconnect` | Domotic/MQTT/MQTTManager.swift:223-230 | the session ends disconnected whether or not an error came with it, nothing else changes |
| `MqttManager.HandleReceivedMessage` | Domotic/MQTT/MQTTManager.swift:132-172 | store mirrors the flags after any message; one outlet's topic never changes the other's flag; at most one notification, never a publish |
| `MqttProperties.HandleLightEchoReachesTarget` | Domotic/MQTT/MQTTManager.swift:95-109 | from any session, once the broker echoes a command, each addressed outlet is in the commanded state and the other keeps its state; after a known command the store mirrors the flags; an unknown one changes nothing |
| `MqttProperties.SingleOutletCommand` | Domotic/MQTT/MQTTManager.swift:95-103 | a single-outlet command publishes exactly once with the matching topic and payload |
| `MqttProperties.BothOutletsCommand` | Domotic/MQTT/MQTTManager.swift:104-109 | all_on/all_off publish the same payload twice, first outlet first |
| `MqttProperties.LedStateMessage` | Domotic/MQTT/MQTTManager.swift:146-161 | LED_ON/LED_OFF on an outlet topic sets its flag and notifies exactly once, even when unchanged |
| `MqttProperties.MalformedLedPayloadIgnored` | Domotic/MQTT/MQTTManager.swift:133-161 | any other payload on an outlet topic changes no flag and emits nothing |
| `MqttProperties.AlertOnlyForExactCode` | Domotic/MQTT/MQTTManager.swift:162-166 | an alert is raised iff the topic is the alert topic and the payload is exactly temperature_high |
| `MqttProperties.AlertsRepeat` | Domotic/MQTT/MQTTManager.swift:162-166 | the same alert twice raises two alerts; the already-sent marker never changes |
| `MqttProperties.ReconnectResubscribes` | Domotic/MQTT/MQTTManager.swift:116-123 | accept, disconnect, accept issues the four subscriptions twice, in order |
| `MqttProperties.RefusalDisconnects` | Domotic/MQTT/MQTTManager.swift:124-127 | a refused acknowledgement leaves the session disconnected with no subscriptions |
| `Bindings.Write` | Domotic/Views/AcceuilView.swift:34-37 | writing through a binding changes that cell only: the store, the connection, the reading and the alert marker are kept; a constant binding discards the write |
| `Bindings.SaveLedState` | Domotic/Views/AcceuilView.swift:184-186 | the key holds the value afterwards; no other stored key is changed, added or removed; no flag, the connection or the reading changes |
| `AcceuilView.RunClosure` | Domotic/Views/AcceuilView.swift:38-86 | an outlet closure sends one command and persists its value; the "Prises 1/2" closures command both, set both flags and persist both; the connection and the reading are unchanged, and no stored key other than the outlet keys written is changed, added or removed |
| `AcceuilView.PressRow` | Domotic/Views/AcceuilView.swift:223-229 | runs actionOff iff the bound value was on, then the bound value is the negation of what the action left; every other cell and the store are as the action left them |
| `AcceuilView.PressOn` | Domotic/Views/AcceuilView.swift:252-255 | runs actionOn, then the bound value is on; every other cell and the store are as the action left them |
| `AcceuilView.PressOff` | Domotic/Views/AcceuilView.swift:267-270 | runs actionOff, then the bound value is off; every other cell and the store are as the action left them |
| `AcceuilView.OpenHome` | Domotic/Views/AcceuilView.swift:15 | the home screen starts with isBothLEDsOn as stored under its key, false when absent |
| `ViewProperties.BothFlagNotPersisted` | Domotic/Views/AcceuilView.swift:15-86 | no home-screen button writes isBothLEDsOn to the store, so a reopened home screen starts from the value stored before; no view displays it |
| `ViewProperties.BothFlagRereadStale` | Domotic/Views/AcceuilView.swift:15-78 | with nothing stored for isBothLEDsOn, after "Prises 1/2" On both outlets are on yet a reopened home screen starts with isBothLEDsOn false |
| `AcceuilView.ToggleBothLeds` | Domotic/Views/AcceuilView.swift:160-175 | all_off iff both were on, else all_on; both flags and isBothLEDsOn equal the new value; the store mirrors it; the connection and the reading are unchanged, and no stored key but the two outlet keys is changed, added or removed |
| `ViewProperties.PlugRowFlipsItsOutlet` | Domotic/Views/AcceuilView.swift:34-62 | an outlet row flips its flag, sends the matching command, persists it, and touches nothing else |
| `ViewProperties.PlugRowAgreesWithEcho` | Domotic/Views/AcceuilView.swift:38-62 | echoing an outlet row's command leaves the flags the row set |
| `ViewProperties.BothOnButton` | Domotic/Views/AcceuilView.swift:71-78 | "Prises 1/2" On sends lumiere1_on then lumiere2_on; both flags, both stored values and isBothLEDsOn are on |
| `ViewProperties.BothOffButton` | Domotic/Views/AcceuilView.swift:79-86 | "Prises 1/2" Off is the mirror image |
| `ViewProperties.ToggleBothAgreesWithEcho` | Domotic/Views/AcceuilView.swift:160-175 | echoing the power button's command leaves both outlets as the button set them |
| `ViewProperties.ToggleBothFromMixed` | Domotic/Views/AcceuilView.swift:161-174 | from one outlet on, two presses give all_on then all_off |
| `EtatView.SelectedLed` | Domotic/Views/EtatView.swift:90 | LED1 iff the title is "Prise 1", otherwise LED2 |
| `EtatView.DeleteSchedule` | Domotic/Views/EtatView.swift:135-140 | removes exactly the first entry with the id, order kept, one shorter, saved; no other stored key is changed, added or removed; absent id: unchanged, no save |
| `EtatView.ToggleLed` | Domotic/Views/EtatView.swift:111-132 | for the two outlet titles the outlet flag is flipped, the command for it is sent and persisted, and isOn is then negated from there; otherwise only isOn is toggled; no cell but the outlet's flag and isOn, no stored key but the outlet's (none added or removed), and not the connection or the reading changes |
| `EtatView.ToggleLedCorrected` | Domotic/Views/EtatView.swift:111-130 | the flag is flipped once, and the command sent, the flag and the stored value agree; no other cell, the connection or the reading changes, and no other stored key is changed, added or removed |
| `ViewProperties.ToggleLedThroughOwnFlagReverts` | Domotic/Views/EtatView.swift:111-131 | bound to its own flag, the first outlet's flag ends where it started while the opposite command was sent and persisted |
| `ViewProperties.ToggleLedThroughOwnFlagReverts2` | Domotic/Views/EtatView.swift:121-131 | the same for the second outlet |
| `ViewProperties.ToggleLedWithSeparateBinding` | Domotic/Views/EtatView.swift:111-131 | for either outlet title, bound to any other cell, the outlet flag does flip and that cell is toggled |
| `ViewProperties.EchoRepairsOwnFlagToggle` | Domotic/Views/EtatView.swift:111-131 | once the broker echoes the command, the flag takes the commanded value and the store agrees again |
| `ViewProperties.CorrectedToggleAgreesWithEcho` | Domotic/Views/EtatView.swift:111-130 | echoing the corrected toggle's command changes no flag |
| `ViewProperties.DeleteRemovesOneEntry` | Domotic/Views/EtatView.swift:136-137 | the multiset of schedules loses exactly the removed entry |
| `ViewProperties.DeleteUniqueIdRemovesIt` | Domotic/Views/EtatView.swift:136-137 | with unique ids, the deleted id is no longer in the list |
| `EditScheduleView.ApplyChanges` | Domotic/Views/EditScheduleView.swift:75-86 | the first entry with the id gets the new start, end and action and keeps its id, led and isEnabled; all other entries unchanged; always saved; no other stored key is changed, added or removed |
| `ViewProperties.ApplyChangesKeepsIdentity` | Domotic/Views/EditScheduleView.swift:79-83 | every entry keeps its id, led and isEnabled, in order |
| `ViewProperties.ApplyChangesIdempotent` | Domotic/Views/EditScheduleView.swift:79-83 | applying the same edit twice gives the list applying it once gives |

## Left out

- Transport. The CocoaMQTT client, broker address, port, credentials,
  keep-alive, auto-reconnect and TLS settings (`setupMQTT`, `connect`,
  `disconnect`) are not modelled. Publish and subscribe become `Bus.Event`s.
- `unsubscribe` and `giveFeedback` are not modelled. No modelled operation
  uses them.
- Timers, run loops and main-queue dispatch are not modelled. A tick is one
  call of `ExecuteSchedules` with the minute of the day as a parameter. Only
  the first delay, `60 - second`, is modelled, as `Clock.SecondsToNextMinute`.
- Temperature. `Double(payload)` is the parameter `parseDouble`, and the
  reading is a `real`. The `"%.2f"` formatting in `getTemperatureString` is
  not modelled, because it is floating-point formatting.
- JSON and `UserDefaults`. They are an immutable map with a token codec.
  The encoder's failure branch in `saveSchedules` is not modelled: encoding
  this record cannot fail.
- Date formatter locales. The edit sheet writes times with the `.short` time
  style, while the evaluator reads them with "HH:mm". The new start and end
  are therefore parameters of `ApplyChanges`. Whether they parse is the
  evaluator's `accepts` parameter.
- Notification delivery (`NotificationManager.swift`,
  `NotificationDelegate.swift`, every `sendNotification`). Each notification
  is a `Bus.Note` token with the fields it displays.
- `AddScheduleView.swift`. It builds a `Schedule` type with no `led` field,
  and it is called with a `selectedLED:` argument it does not declare.
  Neither matches `LEDControlSchedule`, so its append is not modelled. The
  LED the sheet is opened with is modelled, as `EtatView.SelectedLed`.
- The outlet screen's other state changes are not modelled: the
  enable/disable toggle (which saves the list), and the reload and save on
  appear and disappear. They are plain save and load calls, already covered
  by `SaveSchedules` and `LoadSchedules`.
- Console logging. Every `print` is left out: the clock line in
  `executeSchedules`, "Unknown action" in `handleLight`, the temperature parse
  failure and the connection messages in the MQTT delegate, and the encode and
  decode errors. They have no effect on state or on what is sent.
- `ScheduleManager.currentLEDState` is not modelled, because it is never read.
- `LoginView.swift`, `DomoticApp.swift` navigation, and all SwiftUI layout are
  not modelled.

## Findings

| source | as written | input that shows it | evidently intended | confidence | as-written member | corrected member |
|---|---|---|---|---|---|---|
| Domotic/Views/EtatView.swift:111-131 | `toggleLED` flips `isLED1On`, sends and persists the flipped value, then `isOn.toggle()` flips the same flag back. The home screen binds `isOn` to that flag (Domotic/Views/AcceuilView.swift:34). | Any press of the power button on the "Prise 1" screen with the flag off. `LED_ON` is sent and `true` is stored, but the flag stays off. While connected, the broker's echo of the app's own command sets the flag afterwards and hides the defect (`ViewProperties.EchoRepairsOwnFlagToggle`). | The flag is flipped once and agrees with the command and the store. | high (not executed) | `ViewProperties.ToggleLedThroughOwnFlagReverts` | `EtatView.ToggleLedCorrected` |

=== FILE: acceuil_view.dfy ===
/**
 The home screen: the per-outlet rows, the "Prises 1/2" row with separate On
 and Off buttons, and the power button that switches both outlets. The button
 actions are closures in the app; here each closure is a `Closure` value run
 by `RunClosure`, and each row takes its `isOn` binding as a `Cell`.
 */
module AcceuilView {

  import opened Bus
  import opened Defaults
  import opened MqttManager
  import opened Bindings

  datatype Plug = Plug1 | Plug2

  /** The home screen appearing: `isBothLEDsOn` starts from the boolean stored under
      its own key (false when absent); the manager's session is shared as it is. */
  function OpenHome(s: Session): (u: Ui)
    ensures u.session == s
    ensures u.isBothLedsOn <==> BothKey in s.store && s.store[BothKey] == BoolValue(true)
  {
    Ui(s, GetBool(s.store, BothKey))
  }

  /** The `actionOn`/`actionOff` closures the home screen passes to its rows. */
  datatype Closure =
    | PlugCommand(plug: Plug, on: bool)  // one outlet's row: send the command, persist the value
    | BothCommand(on: bool)              // "Prises 1/2": command both, set both flags, persist both

  function CommandName(plug: Plug, on: bool): string
  {
    match plug
    case Plug1 => if on then "lumiere1_on" else "lumiere1_off"
    case Plug2 => if on then "lumiere2_on" else "lumiere2_off"
  }

  function KeyOf(plug: Plug): string
  {
    if plug == Plug1 then Led1Key else Led2Key
  }

  function CellOf(plug: Plug): Cell
  {
    if plug == Plug1 then Led1Flag else Led2Flag
  }

  function TopicOfPlug(plug: Plug): string
  {
    if plug == Plug1 then Led1Topic else Led2Topic
  }

  function PayloadOf(on: bool): string
  {
    if on then LedOn else LedOff
  }

  function RunClosure(u: Ui, c: Closure): (r: Outcome)
    // a single outlet's closure sends one command and persists its value but leaves
    // the in-memory flags to the row's own toggle
    ensures c.PlugCommand? ==>
      && r.events == [Publish(TopicOfPlug(c.plug), PayloadOf(c.on))]
      && GetBool(r.ui.session.store, KeyOf(c.plug)) == c.on
      && forall d :: Read(r.ui, d) == Read(u, d)
    // the "Prises 1/2" closure commands the first outlet, then the second, and sets both flags
    ensures c.BothCommand? ==>
      && r.events == [Publish(Led1Topic, PayloadOf(c.on)), Publish(Led2Topic, PayloadOf(c.on))]
      && r.ui.session.isLed1On == c.on && r.ui.session.isLed2On == c.on
      && Mirrored(r.ui) && r.ui.isBothLedsOn == u.isBothLedsOn
      && KeptExcept(u.session.store, r.ui.session.store, {Led1Key, Led2Key})
    // no closure touches the connection, the reading, or any other stored key
    ensures LinkKept(u.session, r.ui.session)
    ensures c.PlugCommand? ==> KeptExcept(u.session.store, r.ui.session.store, {KeyOf(c.plug)})
  {
    match c
    case PlugCommand(p, on) =>
      Outcome(SaveLedState(u, KeyOf(p), on), HandleLight(CommandName(p, on)))
    case BothCommand(on) =>
      var events := HandleLight(CommandName(Plug1, on)) + HandleLight(CommandName(Plug2, on));
      var u1 := u.(session := u.session.(isLed1On := on, isLed2On := on));
      Outcome(SaveLedState(SaveLedState(u1, Led1Key, on), Led2Key, on), events)
  }

  /** `LedControlRow`'s button: run `actionOff` if the bound value is on, `actionOn`
      otherwise, then negate the bound value. */
  function PressRow(u: Ui, isOn: Cell, actionOn: Closure, actionOff: Closure): (r: Outcome)
    ensures r.events == RunClosure(u, if Read(u, isOn) then actionOff else actionOn).events
    ensures var after := RunClosure(u, if Read(u, isOn) then actionOff else actionOn).ui;
      !isOn.Constant? ==> Read(r.ui, isOn) == !Read(after, isOn)
    ensures var after := RunClosure(u, if Read(u, isOn) then actionOff else actionOn).ui;
      && (forall d :: d != isOn ==> Read(r.ui, d) == Read(after, d))
      && r.ui.session.store == after.session.store && LinkKept(after.session, r.ui.session)
  {
    var a := RunClosure(u, if Read(u, isOn) then actionOff else actionOn);
    Outcome(Write(a.ui, isOn, !Read(a.ui, isOn)), a.events)
  }

  /** `LedControlRowTwoButtons`' On button: run `actionOn`, then set the bound value. */
  function PressOn(u: Ui, isOn: Cell, actionOn: Closure): (r: Outcome)
    ensures r.events == RunClosure(u, actionOn).events
    ensures !isOn.Constant? ==> Read(r.ui, isOn)
    ensures var after := RunClosure(u, actionOn).ui;
      && (forall d :: d != isOn ==> Read(r.ui, d) == Read(after, d))
      && r.ui.session.store == after.session.store && LinkKept(after.session, r.ui.session)
  {
    var a := RunClosure(u, actionOn);
    Outcome(Write(a.ui, isOn, true), a.events)
  }

  /** `LedControlRowTwoButtons`' Off button: run `actionOff`, then clear the bound value. */
  function PressOff(u: Ui, isOn: Cell, actionOff: Closure): (r: Outcome)
    ensures r.events == RunClosure(u, actionOff).events
    ensures !isOn.Constant? ==> !Read(r.ui, isOn)
    ensures var after := RunClosure(u, actionOff).ui;
      && (forall d :: d != isOn ==> Read(r.ui, d) == Read(after, d))
      && r.ui.session.store == after.session.store && LinkKept(after.session, r.ui.session)
  {
    var a := RunClosure(u, actionOff);
    Outcome(Write(a.ui, isOn, false), a.events)
  }

  /** The row for one outlet as the home screen wires it: bound to that outlet's flag. */
  function PressPlugRow(u: Ui, plug: Plug): Outcome
  {
    PressRow(u, CellOf(plug), PlugCommand(plug, true), PlugCommand(plug, false))
  }

  /** The "Prises 1/2" row's buttons as the home screen wires them: bound to `isBothLEDsOn`. */
  function PressBothOn(u: Ui): Outcome
  {
    PressOn(u, BothFlag, BothCommand(true))
  }

  function PressBothOff(u: Ui): Outcome
  {
    PressOff(u, BothFlag, BothCommand(false))
  }

  /** `toggleBothLEDs`: all off when both outlets are on, otherwise all on; the
      flags, the store and `isBothLEDsOn` all end up at the new value. */
  function ToggleBothLeds(u: Ui): (r: Outcome)
    ensures var wasBoth := u.session.isLed1On && u.session.isLed2On;
      && r.events == HandleLight(if wasBoth then "all_off" else "all_on")
      && r.ui.session.isLed1On == r.ui.session.isLed2On == r.ui.isBothLedsOn == !wasBoth
      && Mirrored(r.ui)
    ensures LinkKept(u.session, r.ui.session)
    ensures KeptExcept(u.session.store, r.ui.session.store, {Led1Key, Led2Key})
  {
    var both := u.session.isLed1On && u.session.isLed2On;
    var events := HandleLight(if both then "all_off" else "all_on");
    var u1 := u.(session := u.session.(isLed1On := !both, isLed2On := !both));
    var u2 := SaveLedState(SaveLedState(u1, Led1Key, !both), Led2Key, !both);
    Outcome(u2.(isBothLedsOn := u2.session.isLed1On && u2.session.isLed2On), events)
  }
}

=== FILE: bindings.dfy ===
/**
 The state the views share through SwiftUI bindings. A `Cell` names the storage
 a `@Binding var isOn` is bound to, so that two names for the same storage are
 one cell here: `EtatView(title: "Prise 1", isOn: $mqttManager.isLED1On, ...)`
 hands the view the very flag its `toggleLED` also flips.
 */
module Bindings {

  import opened Bus
  import opened Defaults
  import opened MqttManager

  /** The manager's published session and the home screen's `isBothLEDsOn`. */
  datatype Ui = Ui(session: Session, isBothLedsOn: bool)

  /** Where a binding points: one of the three flags, or a `.constant` binding,
      which reads a fixed value and discards writes. */
  datatype Cell = Led1Flag | Led2Flag | BothFlag | Constant(value: bool)

  datatype Outcome = Outcome(ui: Ui, events: seq<Event>)

  function Read(u: Ui, c: Cell): bool
  {
    match c
    case Led1Flag => u.session.isLed1On
    case Led2Flag => u.session.isLed2On
    case BothFlag => u.isBothLedsOn
    case Constant(v) => v
  }

  /** Writing through a binding changes that cell and no other state. */
  function Write(u: Ui, c: Cell, v: bool): (r: Ui)
    ensures !c.Constant? ==> Read(r, c) == v
    ensures forall d :: d != c ==> Read(r, d) == Read(u, d)
    ensures c.Constant? ==> r == u
    ensures r.session.store == u.session.store && LinkKept(u.session, r.session)
  {
    match c
    case Led1Flag => u.(session := u.session.(isLed1On := v))
    case Led2Flag => u.(session := u.session.(isLed2On := v))
    case BothFlag => u.(isBothLedsOn := v)
    case Constant(_) => u
  }

  /** `saveLEDState(key:value:)`: one boolean written to the store. */
  function SaveLedState(u: Ui, key: string, v: bool): (r: Ui)
    ensures GetBool(r.session.store, key) == v
    ensures forall c :: Read(r, c) == Read(u, c)
    ensures KeptExcept(u.session.store, r.session.store, {key}) && LinkKept(u.session, r.session)
  {
    u.(session := u.session.(store := SetBool(u.session.store, key, v)))
  }

  /** The parts of the session no view writes: the connection, the last reading and
      the alert marker. */
  predicate LinkKept(before: Session, after: Session)
  {
    && after.isConnected == before.isConnected
    && after.lastTemp == before.lastTemp
    && after.hasSentTemperatureAlert == before.hasSentTemperatureAlert
  }

  /** The outlets' persisted flags agree with the in-memory ones. */
  predicate Mirrored(u: Ui)
  {
    GetBool(u.session.store, Led1Key) == u.session.isLed1On && GetBool(u.session.store, Led2Key) == u.session.isLed2On
  }
}

=== FILE: bus.dfy ===
/**
 The message-bus vocabulary shared by every component: the four broker topics,
 the two LED payloads, and the observable effects a step can produce. Publishing,
 subscribing and showing a local notification are not performed here; each
 becomes an `Event` appended to the step's output log, in the order the app
 would perform it.
 */
module Bus {

  /** Command/state topic of the first outlet ("Prise 1"). */
  const Led1Topic: string := "sae301/led"
  /** Command/state topic of the second outlet ("Prise 2"). */
  const Led2Topic: string := "sae301_2/led"
  const TemperatureTopic: string := "sae301/temperature"
  const AlertTopic: string := "sae301/alert"

  const LedOn: string := "LED_ON"
  const LedOff: string := "LED_OFF"

  /** The one alert code the router recognises. */
  const TemperatureHigh: string := "temperature_high"

  /** A local notification, reduced to what distinguishes one from another. */
  datatype Note =
    | ScheduleBegan(start: string, end: string, action: string)  // "Début de la plage horaire"
    | ScheduleEnded(start: string, end: string)                  // "Fin de la plage horaire"
    | PlugSwitched(plug: nat, on: bool)                          // "La prise N est allumée/éteinte."
    | TemperatureAlert                                           // "Alerte de Température !"

  datatype Event =
    | Publish(topic: string, payload: string)
    | Subscribe(topic: string)
    | Notify(note: Note)

  /** True when the log holds no publish at all. */
  predicate NoPublish(events: seq<Event>)
  {
    forall i :: 0 <= i < |events| ==> !events[i].Publish?
  }

  /** The publishes of a log, in order, as (topic, payload) pairs. */
  function Publishes(events: seq<Event>): (r: seq<(string, string)>)
    ensures |r| <= |events|
    ensures NoPublish(events) <==> r == []
  {
    if events == [] then []
    else
      var rest := Publishes(events[1..]);
      assert forall i :: 1 <= i < |events| ==> events[i] == events[1..][i - 1];
      match events[0]
      case Publish(t, p) => [(t, p)] + rest
      case _ => rest
  }

  lemma {:induction false} PublishesAppend(a: seq<Event>, b: seq<Event>)
    ensures Publishes(a + b) == Publishes(a) + Publishes(b)
  {
    if a == [] {
      assert a + b == b;
    } else {
      assert (a + b)[1..] == a[1..] + b;
      PublishesAppend(a[1..], b);
    }
  }
}

=== FILE: clock.dfy ===
/**
 The wall clock as the schedule evaluator sees it: a minute of the day
 rendered with the date pattern "HH:mm" (two-digit 24-hour hour, a colon,
 two-digit minute; Unicode Technical Standard #35, Part 4, Date Field
 Symbol Table), plus the strict parser for that pattern and the arithmetic
 that aligns the first tick on a minute boundary.
 */
module Clock {

  import opened Options

  const MinutesPerDay: nat := 1440

  predicate IsDigit(c: char)
  {
    '0' <= c <= '9'
  }

  function DigitChar(d: nat): (c: char)
    requires d < 10
    ensures IsDigit(c)
    ensures DigitValue(c) == d
  {
    ('0' as int + d) as char
  }

  function DigitValue(c: char): nat
    requires IsDigit(c)
  {
    c as int - '0' as int
  }

  /** Two zero-padded digits. */
  function TwoDigits(n: nat): (r: string)
    requires n < 100
    ensures |r| == 2 && IsDigit(r[0]) && IsDigit(r[1])
    ensures DigitValue(r[0]) * 10 + DigitValue(r[1]) == n
  {
    [DigitChar(n / 10), DigitChar(n % 10)]
  }

  /** The "HH:mm" rendering of a minute of the day. */
  function FormatClock(minute: nat): (r: string)
    requires minute < MinutesPerDay
    ensures |r| == 5 && r[2] == ':'
    ensures IsDigit(r[0]) && IsDigit(r[1]) && IsDigit(r[3]) && IsDigit(r[4])
  {
    TwoDigits(minute / 60) + ":" + TwoDigits(minute % 60)
  }

  /** Strict "HH:mm" parsing: exactly five characters, hour below 24, minute below 60. */
  function ParseClock(s: string): (r: Option<nat>)
    ensures r.Some? ==> r.value < MinutesPerDay
  {
    if |s| == 5 && s[2] == ':' && IsDigit(s[0]) && IsDigit(s[1]) && IsDigit(s[3]) && IsDigit(s[4]) then
      var h := DigitValue(s[0]) * 10 + DigitValue(s[1]);
      var m := DigitValue(s[3]) * 10 + DigitValue(s[4]);
      if h < 24 && m < 60 then Some(h * 60 + m) else None
    else None
  }

  /** Rendering then parsing gives the minute back. */
  lemma ParseFormat(minute: nat)
    requires minute < MinutesPerDay
    ensures ParseClock(FormatClock(minute)) == Some(minute)
  {
    var s := FormatClock(minute);
    assert s[0..2] == TwoDigits(minute / 60);
    assert s[3..5] == TwoDigits(minute % 60);
  }

  /** A string parses to a minute exactly when it is that minute's rendering:
      the parser accepts nothing but canonical "HH:mm" text. */
  lemma ParseClockIsCanonical(s: string, minute: nat)
    requires minute < MinutesPerDay
    ensures ParseClock(s) == Some(minute) <==> s == FormatClock(minute)
  {
    if s == FormatClock(minute) {
      ParseFormat(minute);
    }
    if ParseClock(s) == Some(minute) {
      var h := DigitValue(s[0]) * 10 + DigitValue(s[1]);
      var m := DigitValue(s[3]) * 10 + DigitValue(s[4]);
      assert minute / 60 == h && minute % 60 == m;
      var f := FormatClock(minute);
      assert f[0] == DigitChar(h / 10) && f[1] == DigitChar(h % 10);
      assert f[3] == DigitChar(m / 10) && f[4] == DigitChar(m % 10);
      assert s[0] == f[0] && s[1] == f[1] && s[3] == f[3] && s[4] == f[4];
      assert s == f;
    }
  }

  /** Distinct minutes render to distinct strings, so comparing rendered times is comparing minutes. */
  lemma FormatClockInjective(a: nat, b: nat)
    requires a < MinutesPerDay && b < MinutesPerDay
    ensures FormatClock(a) == FormatClock(b) <==> a == b
  {
    if FormatClock(a) == FormatClock(b) {
      ParseFormat(a);
      ParseFormat(b);
    }
  }

  /** Delay before the first tick: the seconds left until the next minute boundary. */
  function SecondsToNextMinute(second: nat): (r: nat)
    requires second < 60
    ensures 1 <= r <= 60
    ensures (second + r) % 60 == 0
  {
    60 - second
  }
}

=== FILE: defaults.dfy ===
/**
 The process-wide user-defaults store, as an immutable key-value map.
 Booleans are stored directly; the schedule list is stored as a data blob,
 modelled as a sequence of tagged tokens that stands in for its JSON text.
 */
module Defaults {

  import opened Options

  /** One scalar of a serialized blob. */
  datatype Token = Text(s: string) | Flag(b: bool) | Uid(n: nat)

  datatype Value = BoolValue(b: bool) | DataValue(blob: seq<Token>)

  type Store = map<string, Value>

  const Led1Key: string := "isLED1On"
  const Led2Key: string := "isLED2On"
  const BothKey: string := "isBothLEDsOn"

  /** `bool(forKey:)`: the stored boolean, `false` when the key is missing or holds data. */
  function GetBool(store: Store, key: string): (r: bool)
    ensures r <==> key in store && store[key] == BoolValue(true)
  {
    if key in store && store[key].BoolValue? then store[key].b else false
  }

  /** `set(_:forKey:)` with a boolean; no other key changes. */
  function SetBool(store: Store, key: string, value: bool): (r: Store)
    ensures GetBool(r, key) == value
    ensures r.Keys == store.Keys + {key}
    ensures forall k :: k in store && k != key ==> r[k] == store[k]
  {
    store[key := BoolValue(value)]
  }

  /** Outside `changed` the two stores agree: every key of `before` is still present
      in `after` with its value, and `after` has no key that `before` lacked. */
  predicate KeptExcept(before: Store, after: Store, changed: set<string>)
  {
    && (forall k :: k in before && k !in changed ==> k in after && after[k] == before[k])
    && (forall k :: k in after && k !in changed ==> k in before)
  }

  /** `data(forKey:)`: the stored blob, or nothing when the key is missing or holds a boolean. */
  function GetData(store: Store, key: string): (r: Option<seq<Token>>)
    ensures r.Some? <==> key in store && store[key].DataValue?
    ensures r.Some? ==> store[key] == DataValue(r.value)
  {
    if key in store && store[key].DataValue? then Some(store[key].blob) else None
  }

  /** `set(_:forKey:)` with a blob; no other key changes. */
  function SetData(store: Store, key: string, blob: seq<Token>): (r: Store)
    ensures GetData(r, key) == Some(blob)
    ensures r.Keys == store.Keys + {key}
    ensures forall k :: k in store && k != key ==> r[k] == store[k]
  {
    store[key := DataValue(blob)]
  }
}

=== FILE: edit_schedule_view.dfy ===
/**
 The edit sheet's "Apply Changes": the first schedule carrying the edited
 schedule's identifier takes the new start, end and action; the list is then
 saved whether or not such a schedule was found. The new start and end are the
 sheet's already formatted time strings.
 */
module EditScheduleView {

  import opened Options
  import opened Defaults
  import opened ScheduleModel
  import opened ScheduleManager

  function ApplyChanges(l: ScheduleList, editing: Schedule, start: string, end: string, action: string): (r: ScheduleList)
    ensures |r.schedules| == |l.schedules|
    ensures LoadSchedules(r.store) == r.schedules
    ensures KeptExcept(l.store, r.store, {SchedulesKey})
    ensures !IdIn(editing.id, l.schedules) ==> r.schedules == l.schedules
    ensures IdIn(editing.id, l.schedules) ==>
      var i := FirstIndex(l.schedules, editing.id).value;
      // the entry keeps its own id, led and isEnabled (not the edited copy's)
      && r.schedules[i] == l.schedules[i].(start := start, end := end, action := action)
      && forall j :: 0 <= j < |l.schedules| && j != i ==> r.schedules[j] == l.schedules[j]
  {
    var xs :=
      match FirstIndex(l.schedules, editing.id)
      case None => l.schedules
      case Some(i) => l.schedules[i := l.schedules[i].(start := start, end := end, action := action)];
    ScheduleList(xs, SaveSchedules(l.store, xs))
  }
}

=== FILE: etat_view.dfy ===
/**
 The per-outlet screen: its power button (`toggleLED`), deletion of a schedule
 from its list, and the LED its "add" sheet targets. `isOn` is the view's
 binding; the home screen binds it to the outlet flag that `toggleLED` itself
 flips, so the two writes land on one cell.
 */
module EtatView {

  import opened Options
  import opened Bus
  import opened Defaults
  import opened ScheduleModel
  import opened ScheduleManager
  import opened MqttManager
  import opened Bindings

  /** The LED the add sheet is opened with: "Prise 1" is LED1, every other title LED2. */
  function SelectedLed(title: string): (led: string)
    ensures led == "LED1" <==> title == "Prise 1"
    ensures led == "LED1" || led == "LED2"
  {
    if title == "Prise 1" then "LED1" else "LED2"
  }

  /** The outlet flag a title's power button flips; any other title flips none, which
      is stood for by a constant cell (writes to it are discarded). */
  function CellFor(title: string): Cell
  {
    if title == "Prise 1" then Led1Flag else if title == "Prise 2" then Led2Flag else Constant(false)
  }

  /** `deleteSchedule`: remove the first schedule with the given identifier and save
      the list; when there is none, the list stays as it was and nothing is saved. */
  function DeleteSchedule(l: ScheduleList, id: nat): (r: ScheduleList)
    ensures !IdIn(id, l.schedules) ==> r == l
    ensures IdIn(id, l.schedules) ==>
      var i := FirstIndex(l.schedules, id).value;
      && r.schedules == l.schedules[..i] + l.schedules[i + 1..]
      && |r.schedules| == |l.schedules| - 1
      && LoadSchedules(r.store) == r.schedules
    ensures KeptExcept(l.store, r.store, {SchedulesKey})
  {
    match FirstIndex(l.schedules, id)
    case None => l
    case Some(i) =>
      var rest := l.schedules[..i] + l.schedules[i + 1..];
      ScheduleList(rest, SaveSchedules(l.store, rest))
  }

  /** `toggleLED` as written: for "Prise 1"/"Prise 2" flip that outlet's flag, send
      the command for the flipped value and persist it; for any other title do none
      of that. In every case the `isOn` binding is then toggled. */
  function ToggleLed(u: Ui, title: string, isOn: Cell): (r: Outcome)
    ensures title == "Prise 1" ==>
      && r.events == HandleLight(if u.session.isLed1On then "lumiere1_off" else "lumiere1_on")
      && GetBool(r.ui.session.store, Led1Key) == !u.session.isLed1On
    ensures title == "Prise 2" ==>
      && r.events == HandleLight(if u.session.isLed2On then "lumiere2_off" else "lumiere2_on")
      && GetBool(r.ui.session.store, Led2Key) == !u.session.isLed2On
    ensures title != "Prise 1" && title != "Prise 2" ==>
      r.events == [] && r.ui == Write(u, isOn, !Read(u, isOn))
    // nothing else changes: the connection, the reading, the stored keys other than
    // the outlet's own, and every cell other than the outlet's flag and `isOn`
    ensures LinkKept(u.session, r.ui.session)
    ensures title == "Prise 1" ==> KeptExcept(u.session.store, r.ui.session.store, {Led1Key})
    ensures title == "Prise 2" ==> KeptExcept(u.session.store, r.ui.session.store, {Led2Key})
    ensures title != "Prise 1" && title != "Prise 2" ==> r.ui.session.store == u.session.store
    ensures forall d :: d != isOn && d != CellFor(title) ==> Read(r.ui, d) == Read(u, d)
    // for an outlet title: the outlet flag is flipped, then `isOn` is negated from there
    ensures title == "Prise 1" || title == "Prise 2" ==>
      var mid := Write(u, CellFor(title), !Read(u, CellFor(title)));
      && (!isOn.Constant? ==> Read(r.ui, isOn) == !Read(mid, isOn))
      && (isOn != CellFor(title) ==> Read(r.ui, CellFor(title)) == !Read(u, CellFor(title)))
  {
    var flipped :=
      if title == "Prise 1" then
        var on := !u.session.isLed1On;
        Outcome(SaveLedState(u.(session := u.session.(isLed1On := on)), Led1Key, on),
                HandleLight(if on then "lumiere1_on" else "lumiere1_off"))
      else if title == "Prise 2" then
        var on := !u.session.isLed2On;
        Outcome(SaveLedState(u.(session := u.session.(isLed2On := on)), Led2Key, on),
                HandleLight(if on then "lumiere2_on" else "lumiere2_off"))
      else Outcome(u, []);
    Outcome(Write(flipped.ui, isOn, !Read(flipped.ui, isOn)), flipped.events)
  }

  /** `toggleLED` without the trailing `isOn.toggle()` for the outlet titles, whose
      `isOn` is the outlet flag already flipped: the flag is flipped once, and the
      command sent, the flag and the stored value all agree. */
  function ToggleLedCorrected(u: Ui, title: string, isOn: Cell): (r: Outcome)
    ensures title == "Prise 1" ==>
      && r.ui.session.isLed1On == !u.session.isLed1On
      && r.events == [Publish(Led1Topic, if r.ui.session.isLed1On then LedOn else LedOff)]
      && GetBool(r.ui.session.store, Led1Key) == r.ui.session.isLed1On
      && r.ui.session.isLed2On == u.session.isLed2On
    ensures title == "Prise 2" ==>
      && r.ui.session.isLed2On == !u.session.isLed2On
      && r.events == [Publish(Led2Topic, if r.ui.session.isLed2On then LedOn else LedOff)]
      && GetBool(r.ui.session.store, Led2Key) == r.ui.session.isLed2On
      && r.ui.session.isLed1On == u.session.isLed1On
    ensures title != "Prise 1" && title != "Prise 2" ==>
      r.events == [] && r.ui == Write(u, isOn, !Read(u, isOn))
    ensures LinkKept(u.session, r.ui.session)
    ensures title == "Prise 1" ==> KeptExcept(u.session.store, r.ui.session.store, {Led1Key})
    ensures title == "Prise 2" ==> KeptExcept(u.session.store, r.ui.session.store, {Led2Key})
    ensures title != "Prise 1" && title != "Prise 2" ==> r.ui.session.store == u.session.store
    // for an outlet title only that outlet's flag changes; `isOn` is left alone
    ensures title == "Prise 1" || title == "Prise 2" ==>
      forall d :: d != CellFor(title) ==> Read(r.ui, d) == Read(u, d)
  {
    if title == "Prise 1" then
      var on := !u.session.isLed1On;
      Outcome(SaveLedState(u.(session := u.session.(isLed1On := on)), Led1Key, on),
              HandleLight(if on then "lumiere1_on" else "lumiere1_off"))
    else if title == "Prise 2" then
      var on := !u.session.isLed2On;
      Outcome(SaveLedState(u.(session := u.session.(isLed2On := on)), Led2Key, on),
              HandleLight(if on then "lumiere2_on" else "lumiere2_off"))
    else Outcome(Write(u, isOn, !Read(u, isOn)), [])
  }
}

=== FILE: mqtt_manager.dfy ===
/**
 The broker session and inbound router. Every handler is a pure step from the
 session (plus the user-defaults store it mirrors the LED flags into) to the
 next session and the events it emitted. Publishing does not look at
 `isConnected`: the app hands every command to the transport whatever the
 connection state.
 */
module MqttManager {

  import opened Options
  import opened Bus
  import opened Defaults

  /** A CONNACK return code. */
  newtype byte = x: int | 0 <= x < 256

  /** Return code 0x00, "Connection Accepted" (section 3.2.2.3 of MQTT 3.1.1);
      0x01 to 0x05 and the reserved values are refusals. */
  const ConnectionAccepted: byte := 0x00

  /** The published state of the manager; `store` is the process-wide user-defaults store. */
  datatype Session = Session(
    isConnected: bool,
    isLed1On: bool,
    isLed2On: bool,
    lastTemp: Option<real>,
    hasSentTemperatureAlert: bool,
    store: Store
  )

  datatype Reaction = Reaction(session: Session, events: seq<Event>)

  /** The manager as created at launch: disconnected, LED flags restored from the store. */
  function InitSession(store: Store): (s: Session)
    ensures !s.isConnected && s.lastTemp.None? && !s.hasSentTemperatureAlert
    ensures s.isLed1On == GetBool(store, Led1Key) && s.isLed2On == GetBool(store, Led2Key)
    ensures s.store == store
  {
    Session(false, GetBool(store, Led1Key), GetBool(store, Led2Key), None, false, store)
  }

  /** The manual command vocabulary accepted by `handleLight`. */
  predicate KnownCommand(action: string)
  {
    action in {"lumiere1_on", "lumiere1_off", "lumiere2_on", "lumiere2_off", "all_on", "all_off"}
  }

  /** `handleLight`: the publishes a command string turns into. */
  function HandleLight(action: string): (r: seq<Event>)
    ensures KnownCommand(action) <==> r != []
    ensures forall i :: 0 <= i < |r| ==> r[i].Publish?
    ensures |r| == 2 <==> action == "all_on" || action == "all_off"
  {
    match action
    case "lumiere1_on" => [Publish(Led1Topic, LedOn)]
    case "lumiere1_off" => [Publish(Led1Topic, LedOff)]
    case "lumiere2_on" => [Publish(Led2Topic, LedOn)]
    case "lumiere2_off" => [Publish(Led2Topic, LedOff)]
    case "all_on" => [Publish(Led1Topic, LedOn), Publish(Led2Topic, LedOn)]
    case "all_off" => [Publish(Led1Topic, LedOff), Publish(Led2Topic, LedOff)]
    case _ => []
  }

  /** The topics subscribed on every accepted connection, in order. */
  const SessionTopics: seq<string> := [Led1Topic, Led2Topic, TemperatureTopic, AlertTopic]

  /** `handleConnectAck`: an accepted connection marks the session connected and
      subscribes to the four topics, every time it is accepted; any refusal marks
      it disconnected and subscribes to nothing. */
  function HandleConnectAck(s: Session, ack: byte): (r: Reaction)
    ensures r.session.isConnected <==> ack == ConnectionAccepted
    ensures ack == ConnectionAccepted ==>
      r.events == [Subscribe(SessionTopics[0]), Subscribe(SessionTopics[1]), Subscribe(SessionTopics[2]), Subscribe(SessionTopics[3])]
    ensures ack != ConnectionAccepted ==> r.events == []
    ensures r.session == s.(isConnected := r.session.isConnected)
  {
    if ack == ConnectionAccepted then
      Reaction(s.(isConnected := true),
               [Subscribe(Led1Topic), Subscribe(Led2Topic), Subscribe(TemperatureTopic), Subscribe(AlertTopic)])
    else
      Reaction(s.(isConnected := false), [])
  }

  /** `handleDisconnect`: the session is disconnected whether or not an error came with it. */
  function HandleDisconnect(s: Session, error: Option<string>): (r: Reaction)
    ensures !r.session.isConnected
    ensures r.session == s.(isConnected := false)
    ensures r.events == []
  {
    Reaction(s.(isConnected := false), [])
  }

  /** `handleReceivedMessage`. The payload is the message's text, or "" when it is
      not text. A temperature reading is parsed by `parseDouble`; an outlet topic
      takes only the two exact LED payloads; the alert topic raises an alert for
      the exact code, every time. Whatever arrived, both LED flags are then written
      to the store. */
  function HandleReceivedMessage(s: Session, topic: string, text: Option<string>, parseDouble: string -> Option<real>): (r: Reaction)
    // the store mirrors the in-memory flags after any message
    ensures GetBool(r.session.store, Led1Key) == r.session.isLed1On
    ensures GetBool(r.session.store, Led2Key) == r.session.isLed2On
    ensures forall k :: k in s.store && k != Led1Key && k != Led2Key ==> k in r.session.store && r.session.store[k] == s.store[k]
    // a message on one outlet's topic never touches the other outlet's flag
    ensures topic != Led1Topic ==> r.session.isLed1On == s.isLed1On
    ensures topic != Led2Topic ==> r.session.isLed2On == s.isLed2On
    // the router never publishes, subscribes or changes the connection
    ensures forall i :: 0 <= i < |r.events| ==> r.events[i].Notify?
    ensures |r.events| <= 1
    ensures r.session.isConnected == s.isConnected
    ensures r.session.hasSentTemperatureAlert == s.hasSentTemperatureAlert
    // the reading changes only on a parsable temperature message
    ensures r.session.lastTemp != s.lastTemp ==> topic == TemperatureTopic && parseDouble(text.GetOr("")).Some?
  {
    var payload := text.GetOr("");
    var s1 := if topic == TemperatureTopic && parseDouble(payload).Some? then s.(lastTemp := parseDouble(payload)) else s;
    var r1 :=
      if topic == Led1Topic then
        (if payload == LedOn then Reaction(s1.(isLed1On := true), [Notify(PlugSwitched(1, true))])
         else if payload == LedOff then Reaction(s1.(isLed1On := false), [Notify(PlugSwitched(1, false))])
         else Reaction(s1, []))
      else if topic == Led2Topic then
        (if payload == LedOn then Reaction(s1.(isLed2On := true), [Notify(PlugSwitched(2, true))])
         else if payload == LedOff then Reaction(s1.(isLed2On := false), [Notify(PlugSwitched(2, false))])
         else Reaction(s1, []))
      else if topic == AlertTopic then
        (if payload == TemperatureHigh then Reaction(s1, [Notify(TemperatureAlert)]) else Reaction(s1, []))
      else Reaction(s1, []);
    var t := r1.session;
    Reaction(t.(store := SetBool(SetBool(t.store, Led1Key, t.isLed1On), Led2Key, t.isLed2On)), r1.events)
  }
}

=== FILE: mqtt_properties.dfy ===
/**
 What the session and router guarantee across calls: commands and their echoes
 agree, every accepted (re)connection re-subscribes, the router reacts once per
 message with no de-duplication or debouncing, and malformed payloads change nothing.
 */
module MqttProperties {

  import opened Options
  import opened Bus
  import opened Defaults
  import opened MqttManager

  /** The broker delivering every published command back to the app, in order,
      as a message on the same topic with the same payload. */
  function Echo(s: Session, events: seq<Event>, parseDouble: string -> Option<real>): Session
    decreases |events|
  {
    if events == [] then s
    else
      var s1 := if events[0].Publish?
        then HandleReceivedMessage(s, events[0].topic, Some(events[0].payload), parseDouble).session
        else s;
      Echo(s1, events[1..], parseDouble)
  }

  /** The state a command asks the first outlet to take, if it addresses it. */
  function Led1Target(action: string): Option<bool>
  {
    if action == "lumiere1_on" || action == "all_on" then Some(true)
    else if action == "lumiere1_off" || action == "all_off" then Some(false)
    else None
  }

  /** The state a command asks the second outlet to take, if it addresses it. */
  function Led2Target(action: string): Option<bool>
  {
    if action == "lumiere2_on" || action == "all_on" then Some(true)
    else if action == "lumiere2_off" || action == "all_off" then Some(false)
    else None
  }

  lemma EchoOfOne(s: Session, topic: string, payload: string, parseDouble: string -> Option<real>)
    ensures Echo(s, [Publish(topic, payload)], parseDouble)
            == HandleReceivedMessage(s, topic, Some(payload), parseDouble).session
  {
    assert [Publish(topic, payload)][1..] == [];
  }

  lemma EchoOfTwo(s: Session, t1: string, p1: string, t2: string, p2: string, parseDouble: string -> Option<real>)
    ensures Echo(s, [Publish(t1, p1), Publish(t2, p2)], parseDouble)
            == Echo(HandleReceivedMessage(s, t1, Some(p1), parseDouble).session, [Publish(t2, p2)], parseDouble)
  {
    assert [Publish(t1, p1), Publish(t2, p2)][1..] == [Publish(t2, p2)];
  }

  /** Echo of one LED command: the addressed flag takes the payload's value. */
  lemma EchoOneLed(s: Session, plug: nat, on: bool, parseDouble: string -> Option<real>)
    requires plug == 1 || plug == 2
    ensures var e := Echo(s, [Publish(if plug == 1 then Led1Topic else Led2Topic, if on then LedOn else LedOff)], parseDouble);
      && (if plug == 1 then e.isLed1On == on && e.isLed2On == s.isLed2On else e.isLed2On == on && e.isLed1On == s.isLed1On)
      && e.isConnected == s.isConnected
      && GetBool(e.store, Led1Key) == e.isLed1On && GetBool(e.store, Led2Key) == e.isLed2On
  {
    var topic := if plug == 1 then Led1Topic else Led2Topic;
    var payload := if on then LedOn else LedOff;
    EchoOfOne(s, topic, payload, parseDouble);
    LedStateMessage(s, plug, payload, parseDouble);
  }

  /** Echo of `all_on` / `all_off`: both flags take the commanded value. */
  lemma EchoBothLeds(s: Session, on: bool, parseDouble: string -> Option<real>)
    ensures var p := if on then LedOn else LedOff;
      var e := Echo(s, [Publish(Led1Topic, p), Publish(Led2Topic, p)], parseDouble);
      && e.isLed1On == on && e.isLed2On == on && e.isConnected == s.isConnected
      && GetBool(e.store, Led1Key) == e.isLed1On && GetBool(e.store, Led2Key) == e.isLed2On
  {
    var p := if on then LedOn else LedOff;
    EchoOfTwo(s, Led1Topic, p, Led2Topic, p, parseDouble);
    var s1 := HandleReceivedMessage(s, Led1Topic, Some(p), parseDouble).session;
    LedStateMessage(s, 1, p, parseDouble);
    EchoOneLed(s1, 2, on, parseDouble);
  }

  /** Commands and router agree: once the broker echoes what `handleLight` published,
      each outlet the command addresses is in the commanded state, the other keeps
      its state and the connection is untouched. A known command's echo also writes
      both flags to the store, so afterwards the store mirrors them whatever it held
      before; an unknown command publishes nothing and the session stays as it was. */
  lemma HandleLightEchoReachesTarget(s: Session, action: string, parseDouble: string -> Option<real>)
    ensures var e := Echo(s, HandleLight(action), parseDouble);
      && e.isLed1On == Led1Target(action).GetOr(s.isLed1On)
      && e.isLed2On == Led2Target(action).GetOr(s.isLed2On)
      && e.isConnected == s.isConnected
      && (KnownCommand(action) ==> GetBool(e.store, Led1Key) == e.isLed1On && GetBool(e.store, Led2Key) == e.isLed2On)
      && (!KnownCommand(action) ==> e == s)
  {
    var cmds := HandleLight(action);
    if action == "lumiere1_on" || action == "lumiere1_off" {
      var on := action == "lumiere1_on";
      assert cmds == [Publish(Led1Topic, if on then LedOn else LedOff)];
      assert Led1Target(action) == Some(on) && Led2Target(action) == None;
      EchoOneLed(s, 1, on, parseDouble);
    } else if action == "lumiere2_on" || action == "lumiere2_off" {
      var on := action == "lumiere2_on";
      assert cmds == [Publish(Led2Topic, if on then LedOn else LedOff)];
      assert Led1Target(action) == None && Led2Target(action) == Some(on);
      EchoOneLed(s, 2, on, parseDouble);
    } else if action == "all_on" || action == "all_off" {
      var on := action == "all_on";
      var p := if on then LedOn else LedOff;
      assert cmds == [Publish(Led1Topic, p), Publish(Led2Topic, p)];
      assert Led1Target(action) == Some(on) && Led2Target(action) == Some(on);
      EchoBothLeds(s, on, parseDouble);
    } else {
      assert cmds == [];
      assert Led1Target(action) == None && Led2Target(action) == None;
    }
  }

  /** A single-outlet command publishes exactly one message, on that outlet's topic. */
  lemma SingleOutletCommand(action: string)
    requires action in {"lumiere1_on", "lumiere1_off", "lumiere2_on", "lumiere2_off"}
    ensures var r := HandleLight(action);
      && |r| == 1
      && r[0].topic == (if action in {"lumiere1_on", "lumiere1_off"} then Led1Topic else Led2Topic)
      && r[0].payload == (if action in {"lumiere1_on", "lumiere2_on"} then LedOn else LedOff)
  {
  }

  /** `all_on` / `all_off` publish the same payload twice, first outlet first. */
  lemma BothOutletsCommand(action: string)
    requires action == "all_on" || action == "all_off"
    ensures var r := HandleLight(action);
      && |r| == 2 && r[0].topic == Led1Topic && r[1].topic == Led2Topic
      && r[0].payload == r[1].payload == (if action == "all_on" then LedOn else LedOff)
  {
  }

  /** An LED payload on an outlet's topic sets that outlet's flag and notifies
      exactly once, even when the flag already had that value. */
  lemma LedStateMessage(s: Session, plug: nat, payload: string, parseDouble: string -> Option<real>)
    requires plug == 1 || plug == 2
    requires payload == LedOn || payload == LedOff
    ensures var r := HandleReceivedMessage(s, if plug == 1 then Led1Topic else Led2Topic, Some(payload), parseDouble);
      && (if plug == 1 then r.session.isLed1On else r.session.isLed2On) == (payload == LedOn)
      && r.events == [Notify(PlugSwitched(plug, payload == LedOn))]
  {
  }

  /** Any other payload on an outlet's topic (including a non-text one) leaves both
      flags as they were and emits nothing. */
  lemma MalformedLedPayloadIgnored(s: Session, topic: string, text: Option<string>, parseDouble: string -> Option<real>)
    requires topic == Led1Topic || topic == Led2Topic
    requires text.GetOr("") != LedOn && text.GetOr("") != LedOff
    ensures var r := HandleReceivedMessage(s, topic, text, parseDouble);
      r.session.isLed1On == s.isLed1On && r.session.isLed2On == s.isLed2On && r.events == []
  {
  }

  /** An alert is raised exactly for the code "temperature_high" on the alert topic. */
  lemma AlertOnlyForExactCode(s: Session, topic: string, text: Option<string>, parseDouble: string -> Option<real>)
    ensures var r := HandleReceivedMessage(s, topic, text, parseDouble);
      r.events == [Notify(TemperatureAlert)] <==> topic == AlertTopic && text == Some(TemperatureHigh)
  {
  }

  /** No debouncing: the same alert delivered twice raises two alerts, and the
      "already sent" marker is neither read nor written. */
  lemma AlertsRepeat(s: Session, parseDouble: string -> Option<real>)
    ensures var r1 := HandleReceivedMessage(s, AlertTopic, Some(TemperatureHigh), parseDouble);
      var r2 := HandleReceivedMessage(r1.session, AlertTopic, Some(TemperatureHigh), parseDouble);
      r1.events + r2.events == [Notify(TemperatureAlert), Notify(TemperatureAlert)]
      && r2.session.hasSentTemperatureAlert == s.hasSentTemperatureAlert
  {
  }

  /** Connect, drop, reconnect: both accepted acknowledgements issue the four
      subscriptions, so they are issued exactly twice, in the same order. */
  lemma ReconnectResubscribes(s: Session, error: Option<string>)
    ensures var a := HandleConnectAck(s, ConnectionAccepted);
      var d := HandleDisconnect(a.session, error);
      var b := HandleConnectAck(d.session, ConnectionAccepted);
      && a.session.isConnected && !d.session.isConnected && b.session.isConnected
      && a.events + d.events + b.events
         == [Subscribe(Led1Topic), Subscribe(Led2Topic), Subscribe(TemperatureTopic), Subscribe(AlertTopic),
             Subscribe(Led1Topic), Subscribe(Led2Topic), Subscribe(TemperatureTopic), Subscribe(AlertTopic)]
  {
  }

  /** A refused acknowledgement after a connected session drops it and subscribes to nothing. */
  lemma RefusalDisconnects(s: Session, ack: byte)
    requires ack != ConnectionAccepted
    ensures var r := HandleConnectAck(HandleConnectAck(s, ConnectionAccepted).session, ack);
      !r.session.isConnected && r.events == []
  {
  }
}

=== FILE: options.dfy ===
/** The optional value used wherever the app falls back on a default (`??`, `if let`). */
module Options {

  datatype Option<+T> = None | Some(value: T) {

    /** The wrapped value, or `default` when there is none (Swift's `??`). */
    function GetOr(default: T): (r: T)
      ensures Some? ==> r == value
      ensures None? ==> r == default
    {
      match this
      case Some(v) => v
      case None => default
    }
  }
}

=== FILE: schedule_manager.dfy ===
/**
 The schedule engine: persistence of the schedule list and the per-minute
 evaluator. The evaluator keeps ONE "already switched by a schedule" flag per
 LED (`led1StateChanged`, `led2StateChanged`), shared by every schedule; the
 schedules are visited in list order, so what an earlier schedule does to a
 flag is what a later schedule of the same tick sees.
 */
module ScheduleManager {

  import opened Options
  import opened Bus
  import opened Defaults
  import opened ScheduleModel
  import Clock

  const SchedulesKey: string := "schedules"

  // ---------------------------------------------------------------------------
  // Persistence

  /** `loadSchedules`: the decoded list, or the empty list when nothing is
      stored under the key or the stored blob does not decode. */
  function LoadSchedules(store: Store): (r: seq<Schedule>)
    ensures GetData(store, SchedulesKey).None? ==> r == []
    ensures r != [] ==> GetData(store, SchedulesKey).Some? && Decode(GetData(store, SchedulesKey).value) == Some(r)
    ensures GetData(store, SchedulesKey).Some? && Decode(GetData(store, SchedulesKey).value).Some?
            ==> r == Decode(GetData(store, SchedulesKey).value).value
    ensures GetData(store, SchedulesKey).Some? && Decode(GetData(store, SchedulesKey).value).None? ==> r == []
  {
    match GetData(store, SchedulesKey)
    case None => []
    case Some(blob) =>
      match Decode(blob)
      case None => []
      case Some(xs) => xs
  }

  /** `saveSchedules`: the list is written under its key and nothing else changes;
      loading afterwards gives back exactly the list that was saved. */
  function SaveSchedules(store: Store, xs: seq<Schedule>): (r: Store)
    ensures LoadSchedules(r) == xs
    ensures r.Keys == store.Keys + {SchedulesKey}
    ensures forall k :: k in store && k != SchedulesKey ==> r[k] == store[k]
  {
    DecodeEncode(xs);
    SetData(store, SchedulesKey, Encode(xs))
  }

  /** A view's in-memory schedule list together with the store it saves into. */
  datatype ScheduleList = ScheduleList(schedules: seq<Schedule>, store: Store)

  // ---------------------------------------------------------------------------
  // Commands

  /** `handleLightAction`: the LED selects the topic ("LED1" the first outlet's,
      anything else the second's) and the action the payload ("On" switches on,
      anything else off). */
  function HandleLightAction(led: string, action: string): (e: Event)
    ensures e.Publish?
    ensures e.topic == Led1Topic <==> led == "LED1"
    ensures e.topic == Led2Topic <==> led != "LED1"
    ensures e.payload == LedOn <==> action == "On"
    ensures e.payload == LedOff <==> action != "On"
  {
    Publish(if led == "LED1" then Led1Topic else Led2Topic, if action == "On" then LedOn else LedOff)
  }

  // ---------------------------------------------------------------------------
  // Evaluator state

  /** The two runtime flags: set when a schedule has switched that LED at its
      start minute and not yet switched it back at an end minute. */
  datatype Flags = Flags(led1: bool, led2: bool)

  /** Result of evaluating schedules: the new flags and what was emitted, in order. */
  datatype Step = Step(flags: Flags, events: seq<Event>)

  /** Whether the schedule's start and end both parse with the evaluator's
      time formatter, and the schedule is switched on. Anything else is skipped. */
  predicate Active(accepts: string -> bool, s: Schedule)
  {
    s.isEnabled && accepts(s.start) && accepts(s.end)
  }

  function Began(s: Schedule): Event
  {
    Notify(ScheduleBegan(s.start, s.end, s.action))
  }

  function Ended(s: Schedule): Event
  {
    Notify(ScheduleEnded(s.start, s.end))
  }

  /** The start block of one loop iteration (run only when `now == s.start`). */
  function StartBlock(f: Flags, s: Schedule): Step
  {
    if s.led == "LED1" && !f.led1 then
      Step(f.(led1 := true), [HandleLightAction("LED1", s.action), Began(s)])
    else if s.led == "LED2" && !f.led2 then
      Step(f.(led2 := true), [HandleLightAction("LED2", s.action), Began(s)])
    else if s.led == "ALL" then
      Step(Flags(true, true),
           (if !f.led1 then [HandleLightAction("LED1", s.action)] else [])
           + (if !f.led2 then [HandleLightAction("LED2", s.action)] else [])
           + [Began(s)])
    else Step(f, [])
  }

  /** The end block of one loop iteration (run only when `now == s.end`). */
  function EndBlock(f: Flags, s: Schedule): Step
  {
    if s.led == "LED1" && f.led1 then
      Step(f.(led1 := false), [Publish(Led1Topic, LedOff), Ended(s)])
    else if s.led == "LED2" && f.led2 then
      Step(f.(led2 := false), [Publish(Led2Topic, LedOff), Ended(s)])
    else if s.led == "ALL" then
      Step(Flags(false, false),
           (if f.led1 then [Publish(Led1Topic, LedOff)] else [])
           + (if f.led2 then [Publish(Led2Topic, LedOff)] else [])
           + [Ended(s)])
    else Step(f, [])
  }

  /** One iteration of the evaluator loop: skip inactive schedules, then the
      start block, then the end block, the latter seeing the flags the former left. */
  function StepSchedule(now: string, accepts: string -> bool, f: Flags, s: Schedule): Step
  {
    if !Active(accepts, s) then Step(f, [])
    else
      var a := if now == s.start then StartBlock(f, s) else Step(f, []);
      var b := if now == s.end then EndBlock(a.flags, s) else Step(a.flags, []);
      Step(b.flags, a.events + b.events)
  }

  /** The loop over the schedule list, in list order, threading the flags. */
  function Tick(now: string, accepts: string -> bool, f: Flags, xs: seq<Schedule>): Step
    decreases |xs|
  {
    if xs == [] then Step(f, [])
    else
      var a := StepSchedule(now, accepts, f, xs[0]);
      var b := Tick(now, accepts, a.flags, xs[1..]);
      Step(b.flags, a.events + b.events)
  }

  /** `executeSchedules` at minute-of-day `minute`: reload the stored list,
      render the clock as "HH:mm", and run the loop. Only the flags survive
      between ticks; the store is read, never written. */
  function ExecuteSchedules(minute: nat, store: Store, accepts: string -> bool, f: Flags): Step
    requires minute < Clock.MinutesPerDay
  {
    Tick(Clock.FormatClock(minute), accepts, f, LoadSchedules(store))
  }

  // ---------------------------------------------------------------------------
  // Vocabulary for stating properties

  /** The flag a single-LED schedule uses. */
  function FlagOf(f: Flags, led: string): bool
  {
    if led == "LED1" then f.led1 else f.led2
  }

  function WithFlag(f: Flags, led: string, v: bool): Flags
  {
    if led == "LED1" then f.(led1 := v) else f.(led2 := v)
  }

  function TopicOf(led: string): string
  {
    if led == "LED1" then Led1Topic else Led2Topic
  }

  predicate SingleLed(led: string)
  {
    led == "LED1" || led == "LED2"
  }

  /** The list with inactive schedules removed, order kept. */
  function ActiveOnly(accepts: string -> bool, xs: seq<Schedule>): (r: seq<Schedule>)
    ensures |r| <= |xs|
    ensures forall i :: 0 <= i < |r| ==> Active(accepts, r[i])
    decreases |xs|
  {
    if xs == [] then []
    else if Active(accepts, xs[0]) then [xs[0]] + ActiveOnly(accepts, xs[1..])
    else ActiveOnly(accepts, xs[1..])
  }
}

=== FILE: schedule_model.dfy ===
/**
 The schedule record (`LEDControlSchedule`) and its serialized form.
 `action` and `led` are plain strings: the record documents "On"/"Off" and
 "LED1"/"LED2"/"ALL" but does not enforce them, so any text can be stored.
 The identifier is a natural number standing in for a UUID.
 */
module ScheduleModel {

  import opened Options
  import opened Defaults

  datatype Schedule = Schedule(
    id: nat,
    start: string,
    end: string,
    action: string,  // documented as "On" or "Off"
    led: string,     // documented as "LED1", "LED2" or "ALL"
    isEnabled: bool
  )

  predicate IdIn(id: nat, xs: seq<Schedule>)
  {
    exists i :: 0 <= i < |xs| && xs[i].id == id
  }

  /** `firstIndex(where: { $0.id == id })`: the position of the first schedule with that identifier. */
  function FirstIndex(xs: seq<Schedule>, id: nat): (r: Option<nat>)
    ensures r.None? <==> !IdIn(id, xs)
    ensures r.Some? ==> r.value < |xs| && xs[r.value].id == id
    ensures r.Some? ==> forall j :: 0 <= j < r.value ==> xs[j].id != id
  {
    if xs == [] then None
    else if xs[0].id == id then Some(0)
    else
      match FirstIndex(xs[1..], id)
      case None =>
        assert forall i :: 1 <= i < |xs| ==> xs[i] == xs[1..][i - 1];
        None
      case Some(k) =>
        assert forall i :: 1 <= i <= k + 1 ==> xs[i] == xs[1..][i - 1];
        Some(k + 1)
  }

  /** An identifier larger than every identifier in `xs`. */
  function FreshId(xs: seq<Schedule>): (r: nat)
    ensures forall i :: 0 <= i < |xs| ==> xs[i].id < r
  {
    if xs == [] then 0
    else
      var rest := FreshId(xs[1..]);
      assert forall i :: 1 <= i < |xs| ==> xs[i] == xs[1..][i - 1];
      if xs[0].id < rest then rest else xs[0].id + 1
  }

  /** Memberwise construction with the default `id = UUID()`: the new record's
      identifier differs from that of every schedule already in existence. No field
      is validated: any action and LED text, documented or not, is kept as given. */
  function NewSchedule(existing: seq<Schedule>, start: string, end: string, action: string, led: string, isEnabled: bool): (s: Schedule)
    ensures !IdIn(s.id, existing)
    ensures s.start == start && s.end == end && s.action == action && s.led == led && s.isEnabled == isEnabled
  {
    Schedule(FreshId(existing), start, end, action, led, isEnabled)
  }

  /** Number of tokens one encoded schedule occupies. */
  const Width: nat := 6

  function EncodeOne(s: Schedule): (r: seq<Token>)
    ensures |r| == Width
  {
    [Uid(s.id), Text(s.start), Text(s.end), Text(s.action), Text(s.led), Flag(s.isEnabled)]
  }

  /** Stand-in for `JSONEncoder().encode(schedules)`. */
  function Encode(xs: seq<Schedule>): (r: seq<Token>)
    ensures |r| == Width * |xs|
  {
    if xs == [] then [] else EncodeOne(xs[0]) + Encode(xs[1..])
  }

  /** Reads the six fields at the front of `ts`, if they are there with the right tags. */
  function DecodeOne(ts: seq<Token>): Option<Schedule>
  {
    if |ts| >= Width && ts[0].Uid? && ts[1].Text? && ts[2].Text? && ts[3].Text? && ts[4].Text? && ts[5].Flag? then
      Some(Schedule(ts[0].n, ts[1].s, ts[2].s, ts[3].s, ts[4].s, ts[5].b))
    else None
  }

  /** Stand-in for `JSONDecoder().decode([LEDControlSchedule].self, from:)`: fails on any malformed blob. */
  function Decode(ts: seq<Token>): (r: Option<seq<Schedule>>)
    ensures r.Some? ==> |ts| == Width * |r.value|
    decreases |ts|
  {
    if ts == [] then Some([])
    else match DecodeOne(ts)
      case None => None
      case Some(s) =>
        match Decode(ts[Width..])
        case None => None
        case Some(rest) => Some([s] + rest)
  }

  /** Codable round trip: decoding an encoded list gives back every schedule with all six fields. */
  lemma {:induction false} DecodeEncode(xs: seq<Schedule>)
    ensures Decode(Encode(xs)) == Some(xs)
  {
    if xs != [] {
      var ts := Encode(xs);
      assert ts[..Width] == EncodeOne(xs[0]);
      assert ts[Width..] == Encode(xs[1..]);
      DecodeEncode(xs[1..]);
      assert [xs[0]] + xs[1..] == xs;
    }
  }

  /** A blob whose length is not a multiple of six never decodes. */
  lemma DecodeRejectsTruncated(ts: seq<Token>)
    requires |ts| % Width != 0
    ensures Decode(ts) == None
  {
  }
}

=== FILE: schedule_properties.dfy ===
/**
 What the per-minute evaluator guarantees, stated over all inputs: the
 behaviour of one loop iteration at a start or end minute for each kind of
 target, the skipping of inactive schedules, the shape of everything it
 publishes, the idempotence of a repeated tick, and the list-order coupling
 that comes from flags being per LED rather than per schedule.
 */
module ScheduleProperties {

  import opened Bus
  import opened ScheduleModel
  import opened ScheduleManager
  import Clock
  import Defaults

  // ---------------------------------------------------------------------------
  // One iteration

  /** A disabled schedule, or one whose start or end the formatter rejects, does
      nothing at any minute, even when its start text equals the clock. */
  lemma InactiveScheduleIsSkipped(now: string, accepts: string -> bool, f: Flags, s: Schedule)
    requires !s.isEnabled || !accepts(s.start) || !accepts(s.end)
    ensures StepSchedule(now, accepts, f, s) == Step(f, [])
  {
  }

  /** At its start minute a single-LED schedule publishes its action to its LED's
      topic and sets that LED's flag, but only if the flag was clear; otherwise
      nothing happens. The other LED's flag is untouched either way. */
  lemma SingleLedStart(now: string, accepts: string -> bool, f: Flags, s: Schedule)
    requires Active(accepts, s) && SingleLed(s.led) && now == s.start && now != s.end
    ensures var r := StepSchedule(now, accepts, f, s);
      if FlagOf(f, s.led) then r == Step(f, [])
      else r == Step(WithFlag(f, s.led, true), [HandleLightAction(s.led, s.action), Began(s)])
  {
  }

  /** A second pass at the same start minute publishes nothing. */
  lemma SingleLedStartIsOnce(now: string, accepts: string -> bool, f: Flags, s: Schedule)
    requires Active(accepts, s) && SingleLed(s.led) && now == s.start && now != s.end
    ensures StepSchedule(now, accepts, StepSchedule(now, accepts, f, s).flags, s).events == []
  {
    SingleLedStart(now, accepts, f, s);
    SingleLedStart(now, accepts, StepSchedule(now, accepts, f, s).flags, s);
  }

  /** At its end minute a single-LED schedule publishes LED_OFF, whatever its
      action, and clears the flag, but only if the flag was set. */
  lemma SingleLedEnd(now: string, accepts: string -> bool, f: Flags, s: Schedule)
    requires Active(accepts, s) && SingleLed(s.led) && now == s.end && now != s.start
    ensures var r := StepSchedule(now, accepts, f, s);
      if FlagOf(f, s.led) then r == Step(WithFlag(f, s.led, false), [Publish(TopicOf(s.led), LedOff), Ended(s)])
      else r == Step(f, [])
  {
  }

  /** At its start minute an "ALL" schedule publishes its action to each LED whose
      flag is clear (first outlet first), sets both flags, and always notifies. */
  lemma AllLedsStart(now: string, accepts: string -> bool, f: Flags, s: Schedule)
    requires Active(accepts, s) && s.led == "ALL" && now == s.start && now != s.end
    ensures var r := StepSchedule(now, accepts, f, s);
      && r.flags == Flags(true, true)
      && r.events == (if f.led1 then [] else [HandleLightAction("LED1", s.action)])
                     + (if f.led2 then [] else [HandleLightAction("LED2", s.action)])
                     + [Began(s)]
  {
  }

  /** At its end minute an "ALL" schedule publishes LED_OFF to each LED whose flag
      is set, clears both flags, and always notifies, even with nothing published. */
  lemma AllLedsEnd(now: string, accepts: string -> bool, f: Flags, s: Schedule)
    requires Active(accepts, s) && s.led == "ALL" && now == s.end && now != s.start
    ensures var r := StepSchedule(now, accepts, f, s);
      && r.flags == Flags(false, false)
      && r.events == (if f.led1 then [Publish(Led1Topic, LedOff)] else [])
                     + (if f.led2 then [Publish(Led2Topic, LedOff)] else [])
                     + [Ended(s)]
  {
  }

  /** A single-LED schedule whose start equals its end, at that minute: the start
      action (if the flag was clear), then LED_OFF, ending with the flag clear. */
  lemma SingleLedSameMinute(now: string, accepts: string -> bool, f: Flags, s: Schedule)
    requires Active(accepts, s) && SingleLed(s.led) && now == s.start && now == s.end
    ensures var r := StepSchedule(now, accepts, f, s);
      && r.flags == WithFlag(f, s.led, false)
      && r.events == (if FlagOf(f, s.led) then [] else [HandleLightAction(s.led, s.action), Began(s)])
                     + [Publish(TopicOf(s.led), LedOff), Ended(s)]
  {
  }

  /** An "ALL" schedule whose start equals its end: its action to the clear LEDs,
      then LED_OFF to both, ending with both flags clear. */
  lemma AllLedsSameMinute(now: string, accepts: string -> bool, f: Flags, s: Schedule)
    requires Active(accepts, s) && s.led == "ALL" && now == s.start && now == s.end
    ensures var r := StepSchedule(now, accepts, f, s);
      && r.flags == Flags(false, false)
      && r.events == (if f.led1 then [] else [HandleLightAction("LED1", s.action)])
                     + (if f.led2 then [] else [HandleLightAction("LED2", s.action)])
                     + [Began(s), Publish(Led1Topic, LedOff), Publish(Led2Topic, LedOff), Ended(s)]
  {
  }

  /** A target other than "LED1", "LED2" or "ALL" is accepted by the record but
      never switches anything. */
  lemma UnknownLedDoesNothing(now: string, accepts: string -> bool, f: Flags, s: Schedule)
    requires !SingleLed(s.led) && s.led != "ALL"
    ensures StepSchedule(now, accepts, f, s) == Step(f, [])
  {
  }

  /** Outside its start and end minutes a schedule does nothing. */
  lemma OffMinuteDoesNothing(now: string, accepts: string -> bool, f: Flags, s: Schedule)
    requires now != s.start && now != s.end
    ensures StepSchedule(now, accepts, f, s) == Step(f, [])
  {
  }

  // ---------------------------------------------------------------------------
  // The whole loop

  /** Running the loop over a concatenation is running it over the first part,
      then over the second from the flags the first part left. */
  lemma {:induction false} TickAppend(now: string, accepts: string -> bool, f: Flags, xs: seq<Schedule>, ys: seq<Schedule>)
    ensures var a := Tick(now, accepts, f, xs);
      var b := Tick(now, accepts, a.flags, ys);
      Tick(now, accepts, f, xs + ys) == Step(b.flags, a.events + b.events)
    decreases |xs|
  {
    if xs == [] {
      assert xs + ys == ys;
    } else {
      assert (xs + ys)[0] == xs[0];
      assert (xs + ys)[1..] == xs[1..] + ys;
      var h := StepSchedule(now, accepts, f, xs[0]);
      TickAppend(now, accepts, h.flags, xs[1..], ys);
      var a := Tick(now, accepts, h.flags, xs[1..]);
      var b := Tick(now, accepts, a.flags, ys);
      assert h.events + (a.events + b.events) == (h.events + a.events) + b.events;
    }
  }

  /** A one-schedule list runs exactly that schedule's iteration. */
  lemma TickSingle(now: string, accepts: string -> bool, f: Flags, s: Schedule)
    ensures Tick(now, accepts, f, [s]) == StepSchedule(now, accepts, f, s)
  {
    var a := StepSchedule(now, accepts, f, s);
    assert [s][1..] == [];
    assert a.events + [] == a.events;
  }

  /** A two-schedule list runs the first iteration, then the second from its flags. */
  lemma TickPair(now: string, accepts: string -> bool, f: Flags, x: Schedule, y: Schedule)
    ensures var a := StepSchedule(now, accepts, f, x);
      var b := StepSchedule(now, accepts, a.flags, y);
      Tick(now, accepts, f, [x, y]) == Step(b.flags, a.events + b.events)
  {
    assert [x, y][1..] == [y];
    TickSingle(now, accepts, StepSchedule(now, accepts, f, x).flags, y);
  }

  /** Dropping every inactive schedule changes nothing: they take no part in a tick. */
  lemma {:induction false} TickIgnoresInactive(now: string, accepts: string -> bool, f: Flags, xs: seq<Schedule>)
    ensures Tick(now, accepts, f, xs) == Tick(now, accepts, f, ActiveOnly(accepts, xs))
    decreases |xs|
  {
    if xs != [] {
      TickIgnoresInactive(now, accepts, StepSchedule(now, accepts, f, xs[0]).flags, xs[1..]);
      if Active(accepts, xs[0]) {
        var ys := [xs[0]] + ActiveOnly(accepts, xs[1..]);
        assert ys[0] == xs[0] && ys[1..] == ActiveOnly(accepts, xs[1..]);
      } else {
        var b := Tick(now, accepts, f, xs[1..]);
        assert [] + b.events == b.events;
      }
    }
  }

  /** Everything the evaluator publishes is an LED_ON or LED_OFF command on one of
      the two outlet topics; it never subscribes. */
  predicate LedCommandsOnly(events: seq<Event>)
  {
    forall i :: 0 <= i < |events| ==>
      && !events[i].Subscribe?
      && (events[i].Publish? ==>
            (events[i].topic == Led1Topic || events[i].topic == Led2Topic)
            && (events[i].payload == LedOn || events[i].payload == LedOff))
  }

  lemma LedCommandsAppend(a: seq<Event>, b: seq<Event>)
    requires LedCommandsOnly(a) && LedCommandsOnly(b)
    ensures LedCommandsOnly(a + b)
  {
    forall i | 0 <= i < |a + b| ensures (a + b)[i] == if i < |a| then a[i] else b[i - |a|] {}
  }

  lemma StepEmitsLedCommandsOnly(now: string, accepts: string -> bool, f: Flags, s: Schedule)
    ensures LedCommandsOnly(StepSchedule(now, accepts, f, s).events)
  {
    if Active(accepts, s) {
      var a := if now == s.start then StartBlock(f, s) else Step(f, []);
      var b := if now == s.end then EndBlock(a.flags, s) else Step(a.flags, []);
      assert LedCommandsOnly(a.events);
      assert LedCommandsOnly(b.events);
      LedCommandsAppend(a.events, b.events);
    }
  }

  lemma {:induction false} TickEmitsLedCommandsOnly(now: string, accepts: string -> bool, f: Flags, xs: seq<Schedule>)
    ensures LedCommandsOnly(Tick(now, accepts, f, xs).events)
    decreases |xs|
  {
    if xs != [] {
      var a := StepSchedule(now, accepts, f, xs[0]);
      TickEmitsLedCommandsOnly(now, accepts, a.flags, xs[1..]);
      StepEmitsLedCommandsOnly(now, accepts, f, xs[0]);
      LedCommandsAppend(a.events, Tick(now, accepts, a.flags, xs[1..]).events);
    }
  }

  // ---------------------------------------------------------------------------
  // Idempotence of a repeated tick

  /** No active schedule ends at `now`. */
  predicate NoEndAt(now: string, accepts: string -> bool, xs: seq<Schedule>)
  {
    forall i :: 0 <= i < |xs| ==> !(Active(accepts, xs[i]) && xs[i].end == now)
  }

  /** The flags a schedule's start block sets. */
  predicate Covers(f: Flags, led: string)
  {
    (led == "LED1" ==> f.led1) && (led == "LED2" ==> f.led2) && (led == "ALL" ==> f.led1 && f.led2)
  }

  /** Every active schedule starting at `now` already has its flags set. */
  predicate StartedAt(now: string, accepts: string -> bool, f: Flags, xs: seq<Schedule>)
  {
    forall i :: 0 <= i < |xs| && Active(accepts, xs[i]) && xs[i].start == now ==> Covers(f, xs[i].led)
  }

  predicate FlagsLe(f: Flags, g: Flags)
  {
    (f.led1 ==> g.led1) && (f.led2 ==> g.led2)
  }

  /** Without end minutes, a tick only ever sets flags. */
  lemma {:induction false} TickOnlySetsFlags(now: string, accepts: string -> bool, f: Flags, xs: seq<Schedule>)
    requires NoEndAt(now, accepts, xs)
    ensures FlagsLe(f, Tick(now, accepts, f, xs).flags)
    decreases |xs|
  {
    if xs != [] {
      var a := StepSchedule(now, accepts, f, xs[0]);
      assert !(Active(accepts, xs[0]) && xs[0].end == now);
      assert FlagsLe(f, a.flags);
      assert NoEndAt(now, accepts, xs[1..]) by {
        forall i | 0 <= i < |xs[1..]| ensures !(Active(accepts, xs[1..][i]) && xs[1..][i].end == now) {
          assert xs[1..][i] == xs[i + 1];
        }
      }
      TickOnlySetsFlags(now, accepts, a.flags, xs[1..]);
    }
  }

  /** Without end minutes, after a tick every schedule starting now has its flags set. */
  lemma {:induction false} TickStartsAll(now: string, accepts: string -> bool, f: Flags, xs: seq<Schedule>)
    requires NoEndAt(now, accepts, xs)
    ensures StartedAt(now, accepts, Tick(now, accepts, f, xs).flags, xs)
    decreases |xs|
  {
    if xs != [] {
      var a := StepSchedule(now, accepts, f, xs[0]);
      var g := Tick(now, accepts, f, xs).flags;
      assert NoEndAt(now, accepts, xs[1..]) by {
        forall i | 0 <= i < |xs[1..]| ensures !(Active(accepts, xs[1..][i]) && xs[1..][i].end == now) {
          assert xs[1..][i] == xs[i + 1];
        }
      }
      TickStartsAll(now, accepts, a.flags, xs[1..]);
      TickOnlySetsFlags(now, accepts, a.flags, xs[1..]);
      assert !(Active(accepts, xs[0]) && xs[0].end == now);
      forall i | 0 <= i < |xs| && Active(accepts, xs[i]) && xs[i].start == now
        ensures Covers(g, xs[i].led)
      {
        if i == 0 {
          assert Covers(a.flags, xs[0].led);
        } else {
          assert xs[i] == xs[1..][i - 1];
        }
      }
    }
  }

  /** From flags that already cover every schedule starting now, and with no end
      minutes, a tick publishes nothing and leaves the flags as they are. */
  lemma {:induction false} CoveredTickIsQuiet(now: string, accepts: string -> bool, f: Flags, xs: seq<Schedule>)
    requires NoEndAt(now, accepts, xs) && StartedAt(now, accepts, f, xs)
    ensures NoPublish(Tick(now, accepts, f, xs).events)
    ensures Tick(now, accepts, f, xs).flags == f
    decreases |xs|
  {
    if xs != [] {
      var a := StepSchedule(now, accepts, f, xs[0]);
      assert !(Active(accepts, xs[0]) && xs[0].end == now);
      assert Active(accepts, xs[0]) && xs[0].start == now ==> Covers(f, xs[0].led);
      assert a.flags == f && NoPublish(a.events);
      assert NoEndAt(now, accepts, xs[1..]) && StartedAt(now, accepts, f, xs[1..]) by {
        forall i | 0 <= i < |xs[1..]|
          ensures !(Active(accepts, xs[1..][i]) && xs[1..][i].end == now)
          ensures Active(accepts, xs[1..][i]) && xs[1..][i].start == now ==> Covers(f, xs[1..][i].led)
        {
          assert xs[1..][i] == xs[i + 1];
        }
      }
      CoveredTickIsQuiet(now, accepts, f, xs[1..]);
      var b := Tick(now, accepts, f, xs[1..]);
      assert forall k :: 0 <= k < |a.events + b.events| ==>
        (a.events + b.events)[k] == if k < |a.events| then a.events[k] else b.events[k - |a.events|];
    }
  }

  /** Calling the evaluator twice for the same minute, with no schedule ending in
      that minute, publishes nothing the second time and leaves the flags where the
      first call put them. (Notifications of "ALL" schedules do repeat.) */
  lemma SecondTickPublishesNothing(now: string, accepts: string -> bool, f: Flags, xs: seq<Schedule>)
    requires NoEndAt(now, accepts, xs)
    ensures var first := Tick(now, accepts, f, xs);
      var second := Tick(now, accepts, first.flags, xs);
      NoPublish(second.events) && second.flags == first.flags
  {
    TickStartsAll(now, accepts, f, xs);
    CoveredTickIsQuiet(now, accepts, Tick(now, accepts, f, xs).flags, xs);
  }

  // ---------------------------------------------------------------------------
  // The tick as scheduled: reading the store

  /** Each tick evaluates exactly the list last saved. */
  lemma ExecuteRunsSavedList(minute: nat, store: Defaults.Store, xs: seq<Schedule>, accepts: string -> bool, f: Flags)
    requires minute < Clock.MinutesPerDay
    ensures ExecuteSchedules(minute, SaveSchedules(store, xs), accepts, f) == Tick(Clock.FormatClock(minute), accepts, f, xs)
  {
  }

  /** With nothing stored, or a blob that does not decode, a tick does nothing. */
  lemma ExecuteWithoutStoredList(minute: nat, store: Defaults.Store, accepts: string -> bool, f: Flags)
    requires minute < Clock.MinutesPerDay
    requires Defaults.GetData(store, SchedulesKey).None? || Decode(Defaults.GetData(store, SchedulesKey).value).None?
    ensures ExecuteSchedules(minute, store, accepts, f) == Step(f, [])
  {
  }
}

=== FILE: schedule_scenarios.dfy ===
/**
 Whole-tick consequences of the evaluator's shared per-LED flags, and the
 minute-by-minute run of two overlapping windows on different outlets.
 */
module ScheduleScenarios {

  import opened Bus
  import opened ScheduleModel
  import opened ScheduleManager
  import opened Clock
  import opened ScheduleProperties

  /** The evaluator's time formatter, taken as strict "HH:mm". */
  predicate StrictAccepts(s: string)
  {
    ParseClock(s).Some?
  }

  /** The publishes of each tick, minute after minute, from minute `minute` on. */
  function Trace(minute: nat, count: nat, accepts: string -> bool, f: Flags, xs: seq<Schedule>): seq<seq<(string, string)>>
    requires minute + count <= MinutesPerDay
    decreases count
  {
    if count == 0 then []
    else
      var t := Tick(FormatClock(minute), accepts, f, xs);
      [Publishes(t.events)] + Trace(minute + 1, count - 1, accepts, t.flags, xs)
  }

  /** Two schedules for the same LED starting in the same minute: only the first
      in list order switches the LED; the second's action is never published, even
      when it asks for the opposite state. */
  lemma SecondScheduleOnSameLedSuppressed(now: string, accepts: string -> bool, f: Flags, x: Schedule, y: Schedule)
    requires Active(accepts, x) && Active(accepts, y)
    requires x.led == "LED1" && y.led == "LED1"
    requires now == x.start && now == y.start && now != x.end && now != y.end
    ensures Tick(now, accepts, f, [x, y]).events
            == (if f.led1 then [] else [HandleLightAction("LED1", x.action), Began(x)])
    ensures Tick(now, accepts, f, [x, y]).flags.led1
  {
    TickPair(now, accepts, f, x, y);
    SingleLedStart(now, accepts, f, x);
    SingleLedStart(now, accepts, StepSchedule(now, accepts, f, x).flags, y);
  }

  /** With LED1's flag set, one LED1 schedule ending and another starting in the
      same minute: the list order decides whether the LED is switched back on. */
  lemma ListOrderDecides(now: string, accepts: string -> bool, f: Flags, x: Schedule, y: Schedule)
    requires Active(accepts, x) && Active(accepts, y)
    requires x.led == "LED1" && y.led == "LED1" && f.led1
    requires now == x.end && now != x.start && now == y.start && now != y.end
    ensures Publishes(Tick(now, accepts, f, [x, y]).events)
            == [(Led1Topic, LedOff), (Led1Topic, if y.action == "On" then LedOn else LedOff)]
    ensures Tick(now, accepts, f, [x, y]).flags.led1
    ensures Publishes(Tick(now, accepts, f, [y, x]).events) == [(Led1Topic, LedOff)]
    ensures !Tick(now, accepts, f, [y, x]).flags.led1
  {
    TickPair(now, accepts, f, x, y);
    TickPair(now, accepts, f, y, x);
    SingleLedEnd(now, accepts, f, x);
    var g := StepSchedule(now, accepts, f, x).flags;
    SingleLedStart(now, accepts, g, y);
    var e1 := [Publish(Led1Topic, LedOff), Ended(x)];
    var e2 := [HandleLightAction("LED1", y.action), Began(y)];
    PublishesAppend(e1, e2);
    SingleLedStart(now, accepts, f, y);
    SingleLedEnd(now, accepts, f, x);
    assert [] + e1 == e1;
  }

  lemma RenderedTimes()
    ensures FormatClock(480) == "08:00"
    ensures FormatClock(482) == "08:02"
    ensures FormatClock(485) == "08:05"
    ensures FormatClock(490) == "08:10"
  {
  }

  /** A minute at which neither schedule starts or ends leaves the flags alone and emits nothing. */
  lemma QuietMinute(now: string, accepts: string -> bool, f: Flags, a: Schedule, b: Schedule)
    requires now != a.start && now != a.end && now != b.start && now != b.end
    ensures Tick(now, accepts, f, [a, b]) == Step(f, [])
  {
    TickPair(now, accepts, f, a, b);
  }

  /** When the second schedule is outside its edges, a tick is the first schedule's iteration. */
  lemma OnlyFirstActs(now: string, accepts: string -> bool, f: Flags, a: Schedule, b: Schedule)
    requires now != b.start && now != b.end
    ensures Tick(now, accepts, f, [a, b]) == StepSchedule(now, accepts, f, a)
  {
    TickPair(now, accepts, f, a, b);
    var r := StepSchedule(now, accepts, f, a);
    OffMinuteDoesNothing(now, accepts, r.flags, b);
    assert r.events + [] == r.events;
  }

  /** When the first schedule is outside its edges, a tick is the second schedule's iteration. */
  lemma OnlySecondActs(now: string, accepts: string -> bool, f: Flags, a: Schedule, b: Schedule)
    requires now != a.start && now != a.end
    ensures Tick(now, accepts, f, [a, b]) == StepSchedule(now, accepts, f, b)
  {
    TickPair(now, accepts, f, a, b);
    OffMinuteDoesNothing(now, accepts, f, a);
    assert [] + StepSchedule(now, accepts, f, b).events == StepSchedule(now, accepts, f, b).events;
  }

  const MorningLed1: Schedule := Schedule(1, "08:00", "08:05", "On", "LED1", true)
  const MorningLed2: Schedule := Schedule(2, "08:02", "08:10", "On", "LED2", true)

  /** Outside the four window edges, the rendered clock matches none of them. */
  lemma NotAnEdge(m: nat)
    requires m < MinutesPerDay && m != 480 && m != 482 && m != 485 && m != 490
    ensures FormatClock(m) != "08:00" && FormatClock(m) != "08:02"
    ensures FormatClock(m) != "08:05" && FormatClock(m) != "08:10"
  {
    RenderedTimes();
    FormatClockInjective(m, 480);
    FormatClockInjective(m, 482);
    FormatClockInjective(m, 485);
    FormatClockInjective(m, 490);
  }

  /** What the run publishes at each minute: the four window edges and nothing else. */
  function ExpectedAt(m: nat): seq<(string, string)>
  {
    if m == 480 then [(Led1Topic, LedOn)]
    else if m == 482 then [(Led2Topic, LedOn)]
    else if m == 485 then [(Led1Topic, LedOff)]
    else if m == 490 then [(Led2Topic, LedOff)]
    else []
  }

  /** The flags in force just before minute `m` of the run. */
  function FlagsBefore(m: nat): Flags
  {
    Flags(480 < m <= 485, 482 < m <= 490)
  }

  lemma MorningSchedulesActive()
    ensures Active(StrictAccepts, MorningLed1) && Active(StrictAccepts, MorningLed2)
  {
    RenderedTimes();
    ParseFormat(480);
    ParseFormat(482);
    ParseFormat(485);
    ParseFormat(490);
  }

  lemma MorningEdge1(m: nat)
    requires m == 480 || m == 485
    ensures var t := Tick(FormatClock(m), StrictAccepts, FlagsBefore(m), [MorningLed1, MorningLed2]);
      Publishes(t.events) == ExpectedAt(m) && t.flags == FlagsBefore(m + 1)
  {
    var now, f := FormatClock(m), FlagsBefore(m);
    MorningSchedulesActive();
    RenderedTimes();
    OnlyFirstActs(now, StrictAccepts, f, MorningLed1, MorningLed2);
    if m == 480 {
      SingleLedStart(now, StrictAccepts, f, MorningLed1);
    } else {
      SingleLedEnd(now, StrictAccepts, f, MorningLed1);
    }
  }

  lemma MorningEdge2(m: nat)
    requires m == 482 || m == 490
    ensures var t := Tick(FormatClock(m), StrictAccepts, FlagsBefore(m), [MorningLed1, MorningLed2]);
      Publishes(t.events) == ExpectedAt(m) && t.flags == FlagsBefore(m + 1)
  {
    var now, f := FormatClock(m), FlagsBefore(m);
    MorningSchedulesActive();
    RenderedTimes();
    OnlySecondActs(now, StrictAccepts, f, MorningLed1, MorningLed2);
    if m == 482 {
      SingleLedStart(now, StrictAccepts, f, MorningLed2);
    } else {
      SingleLedEnd(now, StrictAccepts, f, MorningLed2);
    }
  }

  lemma MorningQuiet(m: nat)
    requires 479 <= m <= 491 && m != 480 && m != 482 && m != 485 && m != 490
    ensures var t := Tick(FormatClock(m), StrictAccepts, FlagsBefore(m), [MorningLed1, MorningLed2]);
      Publishes(t.events) == ExpectedAt(m) && t.flags == FlagsBefore(m + 1)
  {
    NotAnEdge(m);
    QuietMinute(FormatClock(m), StrictAccepts, FlagsBefore(m), MorningLed1, MorningLed2);
  }

  /** One minute of the run. */
  lemma MorningMinute(m: nat)
    requires 479 <= m <= 491
    ensures var t := Tick(FormatClock(m), StrictAccepts, FlagsBefore(m), [MorningLed1, MorningLed2]);
      Publishes(t.events) == ExpectedAt(m) && t.flags == FlagsBefore(m + 1)
  {
    if m == 480 || m == 485 {
      MorningEdge1(m);
    } else if m == 482 || m == 490 {
      MorningEdge2(m);
    } else {
      MorningQuiet(m);
    }
  }

  lemma {:induction false} MorningRun(m: nat, count: nat)
    requires 479 <= m && m + count == 492
    ensures var run := Trace(m, count, StrictAccepts, FlagsBefore(m), [MorningLed1, MorningLed2]);
      |run| == count && forall k :: 0 <= k < count ==> run[k] == ExpectedAt(m + k)
    decreases count
  {
    if count > 0 {
      MorningMinute(m);
      MorningRun(m + 1, count - 1);
    }
  }

  /** LED1 on 08:00-08:05 and LED2 on 08:02-08:10, ticked every minute from 07:59
      to 08:11 from clear flags: LED1 on at 08:00, LED2 on at 08:02, LED1 off at
      08:05, LED2 off at 08:10 (see `ExpectedAt`), and nothing published in any
      other minute. */
  lemma OverlappingWindowsOnTwoOutlets()
    ensures var run := Trace(479, 13, StrictAccepts, Flags(false, false), [MorningLed1, MorningLed2]);
      |run| == 13 && forall k :: 0 <= k < 13 ==> run[k] == ExpectedAt(479 + k)
  {
    MorningRun(479, 13);
  }
}

=== FILE: view_properties.dfy ===
/**
 Properties of the views' operations across calls: the home-screen buttons
 against the broker's echo of what they sent, the schedule list edits against
 what they keep, and the outlet screen's toggle when its binding is the flag
 it flips.
 */
module ViewProperties {

  import opened Options
  import opened Bus
  import opened Defaults
  import opened ScheduleModel
  import opened ScheduleManager
  import opened MqttManager
  import opened MqttProperties
  import opened Bindings
  import opened AcceuilView
  import opened EtatView
  import opened EditScheduleView

  // ---------------------------------------------------------------------------
  // Home screen

  /** Pressing an outlet's row flips that outlet's flag, sends the command for the
      new value, persists it, and touches neither the other outlet nor `isBothLEDsOn`. */
  lemma PlugRowFlipsItsOutlet(u: Ui, plug: Plug)
    ensures var r := PressPlugRow(u, plug);
      var was := Read(u, CellOf(plug));
      && Read(r.ui, CellOf(plug)) == !was
      && r.events == [Publish(TopicOfPlug(plug), PayloadOf(!was))]
      && GetBool(r.ui.session.store, KeyOf(plug)) == !was
      && Read(r.ui, CellOf(if plug == Plug1 then Plug2 else Plug1)) == Read(u, CellOf(if plug == Plug1 then Plug2 else Plug1))
      && r.ui.isBothLedsOn == u.isBothLedsOn
  {
  }

  /** The row and the broker agree: echoing the row's command leaves the outlet in
      the state the row shows. */
  lemma PlugRowAgreesWithEcho(u: Ui, plug: Plug, parseDouble: string -> Option<real>)
    ensures var r := PressPlugRow(u, plug);
      var e := Echo(r.ui.session, r.events, parseDouble);
      e.isLed1On == r.ui.session.isLed1On && e.isLed2On == r.ui.session.isLed2On
  {
    var r := PressPlugRow(u, plug);
    assert r.events[1..] == [];
  }

  /** "Prises 1/2" On: `lumiere1_on` then `lumiere2_on`, both flags, both stored values
      and `isBothLEDsOn` on. */
  lemma BothOnButton(u: Ui)
    ensures var r := PressBothOn(u);
      && r.events == HandleLight("lumiere1_on") + HandleLight("lumiere2_on")
      && r.ui.session.isLed1On && r.ui.session.isLed2On && r.ui.isBothLedsOn
      && Mirrored(r.ui)
  {
  }

  /** "Prises 1/2" Off: the mirror image. */
  lemma BothOffButton(u: Ui)
    ensures var r := PressBothOff(u);
      && r.events == HandleLight("lumiere1_off") + HandleLight("lumiere2_off")
      && !r.ui.session.isLed1On && !r.ui.session.isLed2On && !r.ui.isBothLedsOn
      && Mirrored(r.ui)
  {
  }

  /** The power button and the broker agree: once the broker echoes `all_on`/`all_off`,
      both outlets are in the state the button set. */
  lemma ToggleBothAgreesWithEcho(u: Ui, parseDouble: string -> Option<real>)
    ensures var r := ToggleBothLeds(u);
      var e := Echo(r.ui.session, r.events, parseDouble);
      e.isLed1On == r.ui.session.isLed1On && e.isLed2On == r.ui.session.isLed2On && Mirrored(r.ui)
  {
    var r := ToggleBothLeds(u);
    HandleLightEchoReachesTarget(r.ui.session, if u.session.isLed1On && u.session.isLed2On then "all_off" else "all_on", parseDouble);
  }

  /** Two presses of the power button from a mixed state: all on, then all off. */
  lemma ToggleBothFromMixed(u: Ui)
    requires u.session.isLed1On != u.session.isLed2On
    ensures var r1 := ToggleBothLeds(u);
      var r2 := ToggleBothLeds(r1.ui);
      && r1.events == HandleLight("all_on") && r2.events == HandleLight("all_off")
      && !r2.ui.session.isLed1On && !r2.ui.session.isLed2On && !r2.ui.isBothLedsOn
  {
  }

  /** `isBothLEDsOn` is read from the store when the home screen appears but no
      home-screen action writes it back: after any button, the value a freshly
      opened home screen starts from is the stored one from before, whatever the
      outlets now are. No view displays it: the row only writes it, and the power
      button's colour comes from the two outlet flags. */
  lemma BothFlagNotPersisted(u: Ui, plug: Plug)
    ensures OpenHome(ToggleBothLeds(u).ui.session).isBothLedsOn == GetBool(u.session.store, BothKey)
    ensures OpenHome(PressBothOn(u).ui.session).isBothLedsOn == GetBool(u.session.store, BothKey)
    ensures OpenHome(PressBothOff(u).ui.session).isBothLedsOn == GetBool(u.session.store, BothKey)
    ensures OpenHome(PressPlugRow(u, plug).ui.session).isBothLedsOn == GetBool(u.session.store, BothKey)
  {
    assert BothKey != Led1Key && BothKey != Led2Key;
    SavesKeepBothKey(u.session.store, Led1Key, Led2Key, true);
    SavesKeepBothKey(u.session.store, Led1Key, Led2Key, false);
    SavesKeepBothKey(u.session.store, KeyOf(plug), KeyOf(plug), !Read(u, CellOf(plug)));
  }

  /** Saving outlet values under the outlets' keys leaves `isBothLEDsOn` as stored. */
  lemma SavesKeepBothKey(store: Store, k1: string, k2: string, v: bool)
    requires k1 in {Led1Key, Led2Key} && k2 in {Led1Key, Led2Key}
    ensures GetBool(SetBool(store, k1, v), BothKey) == GetBool(store, BothKey)
    ensures GetBool(SetBool(SetBool(store, k1, v), k2, v), BothKey) == GetBool(store, BothKey)
  {
    assert BothKey != k1 && BothKey != k2;
  }

  /** Consequence: from a store that never held `isBothLEDsOn`, after switching both
      outlets on, a reopened home screen starts with `isBothLEDsOn` false. */
  lemma BothFlagRereadStale(s: Session)
    requires BothKey !in s.store
    ensures var r := PressBothOn(OpenHome(s));
      && r.ui.session.isLed1On && r.ui.session.isLed2On
      && !OpenHome(r.ui.session).isBothLedsOn
  {
    BothFlagNotPersisted(OpenHome(s), Plug1);
  }

  // ---------------------------------------------------------------------------
  // Outlet screen: the binding that is the flag it flips

  /** As written, with `isOn` bound to the outlet's own flag: the flag ends where it
      started, yet the command for the opposite value was sent and that opposite
      value was persisted, so memory and store disagree. */
  lemma ToggleLedThroughOwnFlagReverts(u: Ui)
    ensures var r := ToggleLed(u, "Prise 1", Led1Flag);
      var was := u.session.isLed1On;
      && r.ui.session.isLed1On == was
      && r.events == [Publish(Led1Topic, if was then LedOff else LedOn)]
      && GetBool(r.ui.session.store, Led1Key) == !was
      && !Mirrored(r.ui)
  {
  }

  /** Same for the second outlet. */
  lemma ToggleLedThroughOwnFlagReverts2(u: Ui)
    ensures var r := ToggleLed(u, "Prise 2", Led2Flag);
      var was := u.session.isLed2On;
      && r.ui.session.isLed2On == was
      && r.events == [Publish(Led2Topic, if was then LedOff else LedOn)]
      && GetBool(r.ui.session.store, Led2Key) == !was
      && !Mirrored(r.ui)
  {
  }

  /** Bound to any other cell, the as-written toggle does flip the outlet flag
      (and toggles that other cell too). */
  lemma ToggleLedWithSeparateBinding(u: Ui, title: string, isOn: Cell)
    requires title == "Prise 1" || title == "Prise 2"
    requires isOn != CellFor(title)
    ensures var r := ToggleLed(u, title, isOn);
      && Read(r.ui, CellFor(title)) == !Read(u, CellFor(title))
      && (!isOn.Constant? ==> Read(r.ui, isOn) == !Read(u, isOn))
  {
  }

  /** The broker's echo masks the defect: once the command comes back, the flag takes
      the commanded value and the store agrees with memory again. */
  lemma EchoRepairsOwnFlagToggle(u: Ui, parseDouble: string -> Option<real>)
    ensures var r := ToggleLed(u, "Prise 1", Led1Flag);
      var e := Echo(r.ui.session, r.events, parseDouble);
      e.isLed1On == !u.session.isLed1On
      && GetBool(e.store, Led1Key) == e.isLed1On && GetBool(e.store, Led2Key) == e.isLed2On
  {
    var r := ToggleLed(u, "Prise 1", Led1Flag);
    assert r.events[1..] == [];
  }

  /** The corrected toggle agrees with the broker: echoing its command changes nothing. */
  lemma CorrectedToggleAgreesWithEcho(u: Ui, parseDouble: string -> Option<real>)
    ensures var r := ToggleLedCorrected(u, "Prise 1", Led1Flag);
      var e := Echo(r.ui.session, r.events, parseDouble);
      e.isLed1On == r.ui.session.isLed1On == !u.session.isLed1On && e.isLed2On == r.ui.session.isLed2On
  {
    var r := ToggleLedCorrected(u, "Prise 1", Led1Flag);
    assert r.events[1..] == [];
  }

  // ---------------------------------------------------------------------------
  // Schedule list edits

  predicate UniqueIds(xs: seq<Schedule>)
  {
    forall i, j :: 0 <= i < j < |xs| ==> xs[i].id != xs[j].id
  }

  /** Deleting removes exactly one occurrence of the found schedule: the multiset of
      schedules loses that entry and nothing else. */
  lemma DeleteRemovesOneEntry(l: ScheduleList, id: nat)
    requires IdIn(id, l.schedules)
    ensures var i := FirstIndex(l.schedules, id).value;
      multiset(DeleteSchedule(l, id).schedules) + multiset{l.schedules[i]} == multiset(l.schedules)
  {
    var xs := l.schedules;
    var i := FirstIndex(xs, id).value;
    assert xs == xs[..i] + [xs[i]] + xs[i + 1..];
  }

  /** With unique identifiers, the deleted identifier is gone afterwards. */
  lemma DeleteUniqueIdRemovesIt(l: ScheduleList, id: nat)
    requires UniqueIds(l.schedules)
    ensures !IdIn(id, DeleteSchedule(l, id).schedules)
  {
    var xs := l.schedules;
    if IdIn(id, xs) {
      var i := FirstIndex(xs, id).value;
      var ys := DeleteSchedule(l, id).schedules;
      forall k | 0 <= k < |ys| ensures ys[k].id != id {
        if k < i {
          assert ys[k] == xs[k];
        } else {
          assert ys[k] == xs[k + 1];
        }
      }
    }
  }

  /** Applying an edit keeps every entry's id, led and isEnabled, and the list order. */
  lemma ApplyChangesKeepsIdentity(l: ScheduleList, editing: Schedule, start: string, end: string, action: string)
    ensures var r := ApplyChanges(l, editing, start, end, action).schedules;
      forall j :: 0 <= j < |r| ==>
        r[j].id == l.schedules[j].id && r[j].led == l.schedules[j].led && r[j].isEnabled == l.schedules[j].isEnabled
  {
  }

  /** Applying the same edit twice leaves the list as applying it once. */
  lemma ApplyChangesIdempotent(l: ScheduleList, editing: Schedule, start: string, end: string, action: string)
    ensures var once := ApplyChanges(l, editing, start, end, action);
      ApplyChanges(once, editing, start, end, action).schedules == once.schedules
  {
    var once := ApplyChanges(l, editing, start, end, action);
    ApplyChangesKeepsIdentity(l, editing, start, end, action);
    if IdIn(editing.id, l.schedules) {
      var i := FirstIndex(l.schedules, editing.id).value;
      assert FirstIndex(once.schedules, editing.id) == Some(i);
    }
  }
}
